=== FILE: README.md ===
# Pick-and-place cell: a Dafny model

This project models the control logic of a simulated pick-and-place cell. The cell has four programs:

- **Conveyor controller.** Runs the belt. When the first distance sensor trips, it stops the belt and sends `STOP` to the camera. When the third sensor trips, it sends `1` (go down) to the arm. When the arm sends `START_CONV`, it resumes the belt.
- **Camera controller.** On `STOP`, it polls the simulator's object recognition. It repacks the BGRA camera image to RGB and sends it to the detection server in a length-prefixed request. It then sends `x y z angle_rad` to the arm.
- **Detection server.** Reads the header words and the pixel payload, and checks the payload's size and shape. It runs an oriented-box detector, adds 90 degrees to the angle of an upright box, subtracts 180 once from an angle above 180, and replies with that angle.
- **Arm controller.** Runs an eight-state pick-and-place machine: `WAITING`, `TRANSLATING`, `WAITING2`, `DESCENDING`, `GRASPING`, `ASCENDING`, `TRANSLATING_BACK`, `RELEASING`. It moves along ramps of `STEPS + 1` inverse-kinematics targets, with the gripper kept level by wrist compensation.

Each program's loop body is a pure function from its state and inbox to its new state, its outbox and a log of actuator commands. Running it over a sequence of arrivals gives runs of many iterations.

The modules are:

- `Common`: option and result types, and π.
- `Kinematics`: clamp, the law-of-cosines ratio, wrist compensation and ramps.
- `Messages`: message strings and the parsing of the detection packet.
- `Arm` and `ArmCycle`: one iteration of the arm, the invariant it keeps, and whole cycles.
- `Conveyor`: one iteration of the conveyor and runs of iterations.
- `Framing`: the big-endian 32-bit words, BGRA to RGB repacking and the request layout.
- `Camera`: the camera controller.
- `YoloServer`: the detection server.
- `Pipeline`: lemmas that feed one program's output to the next program's handler.

Some choices about inputs and abstractions:

- **Inverse kinematics.** The trigonometric solver is a parameter `Env.solve` that maps a target point to `(theta, phi)`. The home reference point is `Env.homeX`/`Env.homeY`. The acos argument and its clamp are modelled.
- **Floats on the wire.** A packet is a sequence of fields, each either a number or non-numeric text.
- **Double packing.** The reading of the reply as a native double is a parameter.
- **Detector and transport.** The YOLO detector is a parameter. So is the transport's delivery pattern for partial payload reads.

Some behaviour of the code is kept as written:

- The descent goes down to -0.37, but the ascent starts at -0.4.
- At the end of `TRANSLATING_BACK`, `cx0` is set to 0.0. This is harmless, because leaving `WAITING` resets it to the home point.
- The timed resume restarts the belt but leaves the stop latch set. Only the second sensor clears the latch.

Two points about message handling in the code:

- The conveyor consumes one arm packet per iteration; the rest stay queued. The arm also consumes one conveyor packet per iteration, but it empties its camera inbox.
- The camera has no abort message and no detection-retry budget. When no object is found it only logs a warning, so the arm receives nothing.

## Model

| member | source | states |
|---|---|---|
| Kinematics.Clamp | controllers/arm_controller/arm_controller.py:101-102 | the result lies in [-1, 1]; it is the identity on [-1, 1], and is -1 below and 1 above |
| Kinematics.ElbowCosine | controllers/arm_controller/arm_controller.py:108-113 | the argument handed to acos for a target at distance r always lies in [-1, 1] |
| Kinematics.ClampOnlyOutsideAnnulus | controllers/arm_controller/arm_controller.py:108-113 | for r > 0, the law-of-cosines ratio lies in [-1, 1] exactly when r is in [L2 - L1, L1 + L2], so the clamp changes the ratio only for unreachable targets |
| Kinematics.WristKeepsGripperLevel | controllers/arm_controller/arm_controller.py:203-205 | for every IK answer (theta, phi), the compensated wrist1 command keeps lift + elbow + wrist1 at its home value; at the home pose it is the home wrist angle |
| Kinematics.RampParameter | controllers/arm_controller/arm_controller.py:198-199 | s = k / STEPS lies in [0, 1]; it is 0 exactly at k = 0 and 1 exactly at k = STEPS |
| Kinematics.RampPoint | controllers/arm_controller/arm_controller.py:198-200 | step k's target is the start at k = 0 and the end at k = STEPS, and always lies between them |
| Kinematics.Ramp | controllers/arm_controller/arm_controller.py:198-200 | a ramp issues exactly STEPS + 1 targets, from the start value to the end value, all between them |
| Kinematics.RampMonotone | controllers/arm_controller/arm_controller.py:227-229 | later ramp targets never move back towards the start |
| Messages.ParseFloats | controllers/arm_controller/arm_controller.py:155-162 | the split-and-float parse succeeds exactly when every token is numeric, and returns the values in order |
| Messages.DetectionParses | controllers/camera_controller/camera_controller.py:128-131 | the camera's four-field detection message parses to four numbers, with y in field 1 and the angle in field 3 |
| Arm.TargetsFor | controllers/arm_controller/arm_controller.py:201-207 | a ramp step commands pan and wrist2 at home, lift and elbow at the IK answer, wrist1 at BASE_WRIST1 + BASE_CURV - (theta + phi), which keeps the gripper level, and wrist3 at home only on horizontal moves |
| Arm.HorizontalRamp | controllers/arm_controller/arm_controller.py:195-209 | the horizontal move issues STEPS + 1 level frames, starting at the IK answer for the start point and ending at the one for the end point |
| Arm.VerticalRamp | controllers/arm_controller/arm_controller.py:224-237 | the vertical move issues STEPS + 1 level frames, starting at the IK answer for the start depth and ending at the one for the end depth |
| Arm.RampTargets | controllers/arm_controller/arm_controller.py:198-201 | step k of either ramp commands the IK answer for ramp point k = start + (k / STEPS) * (end - start) |
| Arm.ReceiveCamera | controllers/arm_controller/arm_controller.py:152-162 | a packet changes the detection only in WAITING and only with at least four numeric fields; it then takes field 1 as the offset and field 3 as the angle, and otherwise the state is unchanged |
| Arm.ReceiveConveyor | controllers/arm_controller/arm_controller.py:169-174 | one conveyor packet is consumed; the go-down buffer is set exactly when it was set or the packet is "1", and nothing else changes |
| Arm.Advance | controllers/arm_controller/arm_controller.py:177-312 | each state has one successor on the fixed cycle, taken when its guard holds; START_CONV is sent exactly on RELEASING; the lock, go-down buffer, detection, reference point and counter follow their per-state rules, and WAITING2 consumes the go-down it descends on; an idle WAITING iteration only clears the go-down buffer and logs nothing; WAITING2 (the descending iteration included) commands wrist 3 to the object angle, GRASPING closes the fingers and waits, RELEASING turns half a revolution, opens, waits and turns back; all logged frames are level |
| Arm.Step | controllers/arm_controller/arm_controller.py:149-176 | one iteration handles the camera inbox, then one conveyor packet, then the state machine; the camera inbox is always emptied |
| ArmCycle.InitReachable | controllers/arm_controller/arm_controller.py:92-98 | the start-up state satisfies the cycle invariant |
| ArmCycle.StepKeepsReachable | controllers/arm_controller/arm_controller.py:149-312 | whatever arrives, an iteration keeps the cycle invariant: per phase, the lock, the offset and the reference point agree |
| ArmCycle.LockOnlyMidCycle | controllers/arm_controller/arm_controller.py:178-181 | in reachable states the arm is locked exactly in the six states between WAITING and RELEASING |
| ArmCycle.DetectionStartsCycle | controllers/arm_controller/arm_controller.py:152-189 | the camera's detection with a non-zero y, received in WAITING, starts TRANSLATING in the same iteration with that offset and angle, the lock taken and the go-down buffer cleared |
| ArmCycle.MalformedIgnored | controllers/arm_controller/arm_controller.py:155-162 | a packet the parser rejects leaves an idle arm idle, unlocked, with no object and no motion |
| ArmCycle.WaitingClearsGoDown | controllers/arm_controller/arm_controller.py:191-192 | a go-down received while WAITING never survives the iteration |
| ArmCycle.StartStep | controllers/arm_controller/arm_controller.py:177-189 | the WAITING guard: with an offset just taken and no lock held, the state machine enters TRANSLATING from the home point with the lock taken and the go-down buffer cleared |
| ArmCycle.TranslateStep | controllers/arm_controller/arm_controller.py:194-213 | TRANSLATING runs the whole outbound ramp in one iteration, shifts the reference point by the offset and enters WAITING2 |
| ArmCycle.HoldsUntilGoDown | controllers/arm_controller/arm_controller.py:215-221 | without a go-down, WAITING2 stays put for any number of iterations, only re-commanding wrist3 to the object angle |
| ArmCycle.DuplicateGoDownOneDescent | controllers/arm_controller/arm_controller.py:169-223 | two "1"s queued in WAITING2 give one descent: the first is consumed by the transition, and the second is only buffered while DESCENDING moves on to GRASPING |
| ArmCycle.DescendStep | controllers/arm_controller/arm_controller.py:215-221 | a go-down at the head of the conveyor queue moves WAITING2 to DESCENDING, and that iteration commands wrist 3 to the object angle |
| ArmCycle.GraspAngleBeforeDescent | controllers/arm_controller/arm_controller.py:215-237 | with the go-down queued, the descending iteration of WAITING2 commands wrist 3 to the object angle, and only the next iteration runs the downward ramp and enters GRASPING with the angle kept |
| ArmCycle.ForcedStep | controllers/arm_controller/arm_controller.py:223-312 | DESCENDING, GRASPING, ASCENDING and RELEASING always advance, whatever arrives |
| ArmCycle.BackPointRetraces | controllers/arm_controller/arm_controller.py:274-281 | the return step at counter c targets the same point as outbound ramp step c, in exact real arithmetic |
| ArmCycle.ReturnStep | controllers/arm_controller/arm_controller.py:278-288 | a TRANSLATING_BACK iteration with a positive counter decrements it and logs the frame of outbound step c |
| ArmCycle.ReturnEnd | controllers/arm_controller/arm_controller.py:289-294 | once the counter is 0, the next iteration clears the offset, releases the lock, sets cx0 to 0.0 and enters RELEASING |
| ArmCycle.ReturnRetracesOutbound | controllers/arm_controller/arm_controller.py:274-294 | from TRANSLATING_BACK with counter c, c + 1 iterations replay outbound ramp steps c, ..., 1 in reverse and end in RELEASING, unlocked and cleared |
| ArmCycle.RunReachable | controllers/arm_controller/arm_controller.py:149-312 | every run from a reachable state keeps the invariant |
| ArmCycle.CycleTail | controllers/arm_controller/arm_controller.py:215-312 | from WAITING2 with a go-down at hand, STEPS + 6 iterations return to WAITING with the detection cleared, the lock released and exactly one START_CONV sent |
| ArmCycle.FromWaitingForDescend | controllers/arm_controller/arm_controller.py:215-312 | a go-down arriving any number of iterations late still completes the cycle with exactly one START_CONV |
| ArmCycle.FullCycle | controllers/arm_controller/arm_controller.py:152-312 | a whole pick cycle from any reachable idle WAITING that receives a detection with y != 0, with the go-down read any number of iterations after the translation: the outbound ramp for y is logged first, and the cycle ends in WAITING, unlocked, cleared, with exactly one START_CONV, whatever the camera sends meanwhile |
| ArmCycle.TranslateBuffersGoDown | controllers/arm_controller/arm_controller.py:168-213 | a "1" read in the TRANSLATING iteration stays buffered: the arm logs the outbound ramp and ends in WAITING2 with the go-down set |
| ArmCycle.BufferedDescendStep | controllers/arm_controller/arm_controller.py:215-221 | WAITING2 with the go-down buffered commands wrist 3 to the object angle, clears the buffer and moves to DESCENDING, whatever the conveyor queue holds |
| ArmCycle.FromTranslatingEarly | controllers/arm_controller/arm_controller.py:168-312 | from TRANSLATING with a "1" read in that iteration, the outbound ramp is logged first and the cycle completes with exactly one START_CONV |
| ArmCycle.FullCycleGoDownInTranslation | controllers/arm_controller/arm_controller.py:152-312 | a detection with y != 0 in idle WAITING followed by a "1" in the next (TRANSLATING) iteration completes the cycle, outbound ramp first, with exactly one START_CONV |
| ArmCycle.GoDownAtDetectionLost | controllers/arm_controller/arm_controller.py:168-192 | a "1" read in the same iteration as the detection is cleared by the WAITING branch that starts the cycle; after the translation the arm is in WAITING2 with nothing buffered or queued |
| ArmCycle.QuarterMetreScenario | controllers/arm_controller/arm_controller.py:152-312 | offset 0.25 and angle 0.4 from the start-up state, with the go-down arriving 3 iterations after the translation, complete one cycle with exactly one START_CONV |
| Conveyor.HandleArm | controllers/conveyor_controller/conveyor_controller.py:68-72 | one arm packet is consumed; START_CONV sets the velocity to the speed, and anything else changes nothing |
| Conveyor.StopLatch | controllers/conveyor_controller/conveyor_controller.py:75-81 | STOP is sent exactly when the first sensor trips while unlatched; the latch is then set, the time recorded and the belt stopped |
| Conveyor.TimedResume | controllers/conveyor_controller/conveyor_controller.py:83-84 | after the dwell the belt is commanded to speed, and the latch and its time are untouched |
| Conveyor.PositionUnlatch | controllers/conveyor_controller/conveyor_controller.py:86-88 | the second sensor clears a set latch and resets its time to -1, without touching the velocity |
| Conveyor.GoDownSignal | controllers/conveyor_controller/conveyor_controller.py:91-96 | "1" is sent exactly when the third sensor exists and trips while no go-down is latched; the latch is then set and the belt stopped |
| Conveyor.ReleaseLatch | controllers/conveyor_controller/conveyor_controller.py:99-100 | the go-down latch clears exactly when the velocity equals the speed |
| Conveyor.TimerStop | controllers/conveyor_controller/conveyor_controller.py:103-105 | when a positive timer expires, the belt stops and the loop ends; otherwise nothing changes |
| Conveyor.Tick | controllers/conveyor_controller/conveyor_controller.py:60-105 | one iteration: the velocity stays 0 or the speed; STOP and "1" are sent exactly under their sensor conditions; the go-down latch clears only at speed; only the second sensor clears the stop latch; the loop halts exactly when the timer expires |
| Conveyor.TickKeepsLatchConsistent | controllers/conveyor_controller/conveyor_controller.py:75-88 | with a non-negative clock, "latch clear" and "stop time is -1" stay equivalent across an iteration |
| Conveyor.TimedResumeKeepsLatch | controllers/conveyor_controller/conveyor_controller.py:83-88 | after the dwell, and with no go-down or timer in the way, the belt runs at speed while the latch stays set unless the second sensor trips |
| Conveyor.OneGoDownPerLatch | controllers/conveyor_controller/conveyor_controller.py:91-100 | with a non-zero speed, an iteration that sends "1" is never directly followed by another that sends "1" |
| Conveyor.InitInvariants | controllers/conveyor_controller/conveyor_controller.py:17-55 | the start-up state runs at speed with the latch consistent |
| Conveyor.RunInvariants | controllers/conveyor_controller/conveyor_controller.py:60-105 | over any run, the velocity is only ever 0 or the speed, and the stop latch agrees with its time |
| Framing.EncodeU32 | controllers/camera_controller/camera_controller.py:76-78 | a header word is four bytes |
| Framing.DecodeU32 | yolo_server/yolo_server.py:30-32 | a decoded header word is below 2^32 |
| Framing.DecodeEncodeU32 | yolo_server/yolo_server.py:30-32 | decoding the camera's encoding of any n < 2^32 gives back n |
| Framing.EncodeDecodeU32 | yolo_server/yolo_server.py:30-32 | encoding the decoded value of any four bytes gives back those bytes |
| Framing.Repack | controllers/camera_controller/camera_controller.py:63-72 | the RGB buffer holds three bytes for every four-byte BGRA pixel |
| Framing.RepackMovesChannels | controllers/camera_controller/camera_controller.py:66-69 | RGB bytes 3i, 3i+1 and 3i+2 are BGRA bytes 4i+2, 4i+1 and 4i; alpha is dropped |
| Framing.EncodeRequest | controllers/camera_controller/camera_controller.py:71-81 | the request is 12 header bytes followed by exactly the pixel payload |
| Framing.RepackedFrameSize | controllers/camera_controller/camera_controller.py:63-72 | a w by h camera image repacks to exactly h * w * 3 bytes |
| Camera.ImageFrame | controllers/camera_controller/camera_controller.py:56-72 | the frame sent for an image keeps its width and height, holds h * w * 3 bytes, and moves every pixel's channels |
| Camera.SendImage | controllers/camera_controller/camera_controller.py:51-94 | an empty image, whatever the camera's width and height, sends nothing and gives -999; otherwise the full request is sent whenever the header packs; only an 8-byte reply is used, and any other length, a pack failure or an exception gives -999 |
| Camera.EmptyImageStillReports | controllers/camera_controller/camera_controller.py:60-61 | a camera that returns no image sends nothing to the server and still reports a recognised object to the arm, with angle 0 |
| Camera.Poll | controllers/camera_controller/camera_controller.py:107-112 | at most 5 reads, stopping at the first positive count; objects are found exactly when one of the five reads would see one |
| Camera.PollFrom | controllers/camera_controller/camera_controller.py:107-112 | from read i on, the poll stops at the first positive count or after the fifth read, with a wait after every empty read |
| Camera.AngleToRadians | controllers/camera_controller/camera_controller.py:122-126 | -999 maps to 0, and any other angle to deg * pi / 180 |
| Camera.AngleToRadiansMonotone | controllers/camera_controller/camera_controller.py:122-126 | the conversion is monotone on real angles, and maps 90 degrees to Pi / 2 and 180 degrees to Pi |
| Camera.InitKeptUntilAnswered | controllers/camera_controller/camera_controller.py:80-87 | the controller starts with the remembered angle at -999 (line 39), and a tick keeps that start state unless a STOP's exchange is answered |
| Camera.Tick | controllers/camera_controller/camera_controller.py:99-137 | one inbox message is consumed; only STOP triggers the exchange; at most one detection goes to the arm, exactly when recognition finds an object, with the object's position and the angle in radians; the STOP handling waits once after every empty read |
| YoloServer.Upright | yolo_server/yolo_server.py:72-73 | +90 is added exactly when the box is taller than it is wide |
| YoloServer.CorrectAngle | yolo_server/yolo_server.py:69-77 | 180 is subtracted at most once and exactly above 180; the result is at most 180 when the corrected value is at most 360; a flat box at most 180 is unchanged; [0, 180] maps into [0, 180] |
| YoloServer.ReplyAngle | yolo_server/yolo_server.py:61-77 | the reply is -999 without a box and the corrected angle with one |
| YoloServer.ReadHeader | yolo_server/yolo_server.py:23-32 | a stream of at most 8 bytes disconnects, one of 9 to 11 bytes fails to unpack, and otherwise the three big-endian words are decoded and exactly 12 bytes are consumed |
| YoloServer.RecvCount | yolo_server/yolo_server.py:39-41 | a read never returns more than requested or available, and returns nothing only when the peer has closed |
| YoloServer.Accumulate | yolo_server/yolo_server.py:37-42 | the payload never exceeds size; no byte is lost or reordered; it is complete exactly when the stream holds enough bytes |
| YoloServer.ServeOnce | yolo_server/yolo_server.py:22-82 | a reply is sent only for a complete request whose size is h * w * 3; it is the reply for exactly that payload, and the rest of the stream follows it |
| YoloServer.Serve | yolo_server/yolo_server.py:20-82 | the loop sends at most one reply per 12 bytes received |
| YoloServer.ServeOnceRequest | yolo_server/yolo_server.py:23-54 | a well-shaped request followed by any bytes is accepted, answered for its own frame, and consumed exactly |
| YoloServer.ServesEveryRequest | yolo_server/yolo_server.py:20-82 | back-to-back well-shaped requests get exactly one reply each, in order, and the loop then ends by disconnection |
| Pipeline.CameraRequestServed | controllers/camera_controller/camera_controller.py:74-89 | the camera's request for a non-empty image is accepted by the server as one whole request and answered for the repacked image |
| Pipeline.StopStartsPick | controllers/camera_controller/camera_controller.py:99-131 | the conveyor's STOP, with an object recognised on any of the five reads, makes an idle arm start TRANSLATING with the object's y offset and the angle in radians derived from the server's reply |
| Pipeline.GoDownStartsDescent | controllers/conveyor_controller/conveyor_controller.py:91-96 | the conveyor's "1" moves an arm waiting in WAITING2 into DESCENDING |
| Pipeline.StartConveyorResumesBelt | controllers/conveyor_controller/conveyor_controller.py:68-100 | the arm's START_CONV, in an iteration where no sensor trips, puts the belt back to speed and clears the go-down latch |

## Left out

- The inverse-kinematics trigonometry (`acos`, `atan2`, `sqrt`, `cos`, `sin`) and the home reference point are parameters of the model. Floating-point trigonometry has no exact counterpart in Dafny's reals.
- The simulator device API is an output log of commands and `Wait` entries. This covers `getDevice`, `setPosition` and `setVelocity`, sensor reads, and the extra `robot.step` calls inside ramps and waits.
- A loop exit on `robot.step(...) == -1`, in the loop heads and inside ramps, is not modelled. It is the simulator shutting down.
- Printing and command-line parsing of speed and timer are left out. They are I/O; speed and timer are the conveyor's `Config`.
- The arm's `conv_receiver` is assumed to exist. Its absence only disables the go-down channel.
- Connecting the sockets is left out, and header reads are taken as whole reads. Partial reads of the payload are modelled.
- Native-endian double packing of the reply is a parameter of the camera. It is a foreign float encoding.
- YOLO inference, `np.degrees` and numpy reshaping are not modelled. The box's rotation in degrees and its width and height are inputs.
- Float parsing and formatting (`float(x)` and f-strings) are abstracted. Tokens are numbers or non-numeric text.
- Cross-process interleaving and timing of the controllers are not modelled. Each controller's iteration is modelled on its own with its inbox as a sequence, and the `Pipeline` lemmas connect one program's output to the next one's input.
- Python floats are modelled as exact Dafny reals. ArmCycle.BackPointRetraces, ArmCycle.ReturnRetracesOutbound and Kinematics.WristKeepsGripperLevel state equalities that hold exactly only in real arithmetic. In the program, IEEE double rounding can move a return target or the pitch sum by a few units in the last place, so there they hold only up to rounding.
- Camera.SendImage: a `sendall` that raises part-way is reported with the whole request as written. Only the returned angle is modelled exactly for that case.
- Conveyor.OneGoDownPerLatch: stated for a non-zero speed. With speed 0 the latch clears in the same iteration, and a "1" can be sent on every iteration the sensor stays tripped.
- Camera.Tick: requires the camera device's image to be empty or to hold `width * height` BGRA pixels. A non-empty buffer of any other size makes the reshape at line 63 raise outside the exception handler, which ends the program.
- ArmCycle.FullCycle: covers a go-down read from the first WAITING2 iteration onward. A go-down read in the TRANSLATING iteration is covered by ArmCycle.FullCycleGoDownInTranslation. A go-down read in the same iteration as the detection is cleared by the WAITING branch at line 180 (ArmCycle.GoDownAtDetectionLost), and the arm then holds in WAITING2 until another "1" arrives, so no cycle-completion property is claimed for that case.
- Kinematics.ElbowCosine: requires a target distance R > 0. A target at the shoulder (R = 0) makes `num / den` raise ZeroDivisionError in `move_horiz`/`move_vert`, which ends the program; that path is not modelled.

=== FILE: arm.dfy ===
/** The arm controller's pick-and-place state machine. One call of Step is
    one iteration of the controller's main loop: read the camera queue, read
    one conveyor packet, then advance the state machine. A ramp phase issues
    all of its Steps + 1 joint targets inside the one iteration, as the
    controller does with its inner `for k in range(STEPS + 1)` loop. */
module Arm {
  import opened Common
  import opened Messages
  import opened Kinematics

  /** The eight states; WaitingForDescend is the source's WAITING2. */
  datatype Phase =
    | Waiting
    | Translating
    | WaitingForDescend
    | Descending
    | Grasping
    | Ascending
    | TranslatingBack
    | Releasing

  /** The one successor of every state on the pick-and-place cycle. */
  function Next(p: Phase): Phase {
    match p
    case Waiting => Translating
    case Translating => WaitingForDescend
    case WaitingForDescend => Descending
    case Descending => Grasping
    case Grasping => Ascending
    case Ascending => TranslatingBack
    case TranslatingBack => Releasing
    case Releasing => Waiting
  }

  /** The controller's mutable fields. `locked` is
      object_detected_and_locked; (cx0, cy0) is the IK reference point. */
  datatype ArmState = ArmState(
    phase: Phase,
    objectX: real,
    objectAngle: real,
    goDownReceived: bool,
    locked: bool,
    backCounter: int,
    cx0: real,
    cy0: real)

  /** Planar IK of move_horiz / move_vert: from the target point (xc, yc) of
      the wrist centre to the joint pair (theta, phi). Its trigonometry is
      left abstract. */
  type Solver = ((real, real)) -> (real, real)

  /** What the arm takes from outside the state machine: the IK solver and
      the home reference point computed from the home pose. */
  datatype Env = Env(solve: Solver, homeX: real, homeY: real)

  /** Actuator commands, in issue order. `Targets` holds the joint targets of
      one ramp step, held for one simulation step. */
  datatype Command =
    | Targets(pan: real, lift: real, elbow: real, wrist1: real, wrist2: real, wrist3: Option<real>)
    | SetWrist3(angle: real)
    | SetFingers(position: real)
    | SetPan(angle: real)
    | Wait(ticks: nat)

  /** Ramp ends: the descent stops at -0.37 but the ascent starts from -0.4. */
  const DescendDepth: real := -0.37
  const AscendStart: real := -0.4
  /** Finger positions: closed (kept below the joint limit) and open. */
  const GripClosed: real := 0.4
  const GripOpen: real := 0.0
  /** Simulation steps the released object is given to fall. */
  const ReleaseSettle: nat := 10

  function Init(env: Env): ArmState {
    ArmState(Waiting, 0.0, 0.0, false, false, 0, env.homeX, env.homeY)
  }

  /** Target of move_horiz(X) and of move_vert(Z) relative to (cx0, cy0). */
  function HorizontalPoint(cx0: real, cy0: real, x: real): (real, real) {
    (cx0 - x, cy0)
  }

  function VerticalPoint(cx0: real, cy0: real, z: real): (real, real) {
    (cx0, cy0 - z)
  }

  /** Every frame keeps the gripper at its home pitch. */
  predicate Level(c: Command) {
    c.Targets? ==> Pitch(c.lift, c.elbow, c.wrist1) == Pitch(BaseShoulderLift, BaseElbow, BaseWrist1)
  }

  /** Joint targets of one ramp step for the IK answer (theta, phi); the
      wrist compensation keeps the gripper level whatever the IK returns. */
  function TargetsFor(angles: (real, real), withWrist3: bool): (c: Command)
    ensures c.Targets? && Level(c)
    // pan and wrist 2 stay at home, lift and elbow take the IK answer, and
    // wrist 1 is compensated for it
    ensures c.pan == BaseShoulderPan && c.wrist2 == BaseWrist2
    ensures c.lift == angles.0 && c.elbow == angles.1
    ensures c.wrist1 == BaseWrist1 + BaseCurv - (angles.0 + angles.1)
    // wrist 3 is re-commanded to home only on the horizontal moves
    ensures c.wrist3 == if withWrist3 then Some(BaseWrist3) else None
  {
    WristKeepsGripperLevel(angles.0, angles.1);
    Targets(BaseShoulderPan, angles.0, angles.1, Wrist1Command(angles.0, angles.1), BaseWrist2,
          if withWrist3 then Some(BaseWrist3) else None)
  }

  /** The horizontal ramp of TRANSLATING (wrist 3 re-commanded each step). */
  function HorizontalRamp(env: Env, cx0: real, cy0: real, start: real, end: real): (log: seq<Command>)
    ensures |log| == Steps + 1
    ensures log[0] == TargetsFor(env.solve(HorizontalPoint(cx0, cy0, start)), true)
    ensures log[Steps] == TargetsFor(env.solve(HorizontalPoint(cx0, cy0, end)), true)
    ensures forall k :: 0 <= k < |log| ==> log[k].Targets? && Level(log[k])
  {
    var xs := Ramp(start, end);
    var log := seq(Steps + 1, k requires 0 <= k <= Steps => TargetsFor(env.solve(HorizontalPoint(cx0, cy0, xs[k])), true));
    assert forall k :: 0 <= k < |log| ==> log[k] == TargetsFor(env.solve(HorizontalPoint(cx0, cy0, xs[k])), true);
    log
  }

  /** The vertical ramps of DESCENDING and ASCENDING (wrist 3 untouched). */
  function VerticalRamp(env: Env, cx0: real, cy0: real, start: real, end: real): (log: seq<Command>)
    ensures |log| == Steps + 1
    ensures log[0] == TargetsFor(env.solve(VerticalPoint(cx0, cy0, start)), false)
    ensures log[Steps] == TargetsFor(env.solve(VerticalPoint(cx0, cy0, end)), false)
    ensures forall k :: 0 <= k < |log| ==> log[k].Targets? && Level(log[k])
  {
    var zs := Ramp(start, end);
    var log := seq(Steps + 1, k requires 0 <= k <= Steps => TargetsFor(env.solve(VerticalPoint(cx0, cy0, zs[k])), false));
    assert forall k :: 0 <= k < |log| ==> log[k] == TargetsFor(env.solve(VerticalPoint(cx0, cy0, zs[k])), false);
    log
  }

  /** Step k of either ramp commands the IK answer for ramp point k, so the
      in-between steps follow the ramp parameterisation as well as the ends. */
  lemma RampTargets(env: Env, cx0: real, cy0: real, start: real, end: real, k: nat)
    requires k <= Steps
    ensures HorizontalRamp(env, cx0, cy0, start, end)[k]
         == TargetsFor(env.solve(HorizontalPoint(cx0, cy0, RampPoint(start, end, k))), true)
    ensures VerticalRamp(env, cx0, cy0, start, end)[k]
         == TargetsFor(env.solve(VerticalPoint(cx0, cy0, RampPoint(start, end, k))), false)
  {
  }

  /** Camera packets are accepted when they parse to at least four floats. */
  predicate Accepts(p: Packet) {
    AllNumeric(p) && |p| >= 4
  }

  /** Handling of the head camera packet: only in WAITING, only a packet of
      four or more numeric fields, and then field 1 is the lateral offset
      and field 3 the grasp angle. Nothing else in the state changes. */
  function ReceiveCamera(st: ArmState, p: Packet): (st': ArmState)
    ensures st.phase == Waiting && Accepts(p) ==>
              st' == st.(objectX := p[1].value, objectAngle := p[3].value)
    ensures !(st.phase == Waiting && Accepts(p)) ==> st' == st
  {
    if st.phase == Waiting then
      match ParseFloats(p)
      case Some(pos) => if |pos| >= 4 then st.(objectX := pos[1], objectAngle := pos[3]) else st
      case None => st
    else st
  }

  /** Handling of one conveyor packet: "1" buffers the go-down signal, any
      other text is dropped; the packet is consumed either way. */
  function ReceiveConveyor(st: ArmState, queue: seq<string>): (r: (ArmState, seq<string>))
    ensures |queue| > 0 ==> r.1 == queue[1..]
    ensures |queue| == 0 ==> r.1 == queue
    ensures r.0.goDownReceived <==> st.goDownReceived || (|queue| > 0 && queue[0] == GoDown)
    ensures r.0 == st.(goDownReceived := r.0.goDownReceived)
  {
    if |queue| > 0 then
      (if queue[0] == GoDown then st.(goDownReceived := true) else st, queue[1..])
    else (st, queue)
  }

  /** Whether the state machine leaves its current state on this iteration. */
  predicate Fires(st: ArmState) {
    match st.phase
    case Waiting => st.objectX != 0.0 && !st.locked
    case WaitingForDescend => st.goDownReceived
    case TranslatingBack => st.backCounter <= 0
    case _ => true
  }

  datatype Advanced = Advanced(state: ArmState, log: seq<Command>, outbox: seq<string>)

  /** TRANSLATING_BACK's offset for counter value c: it walks back from the
      far end using s = (STEPS - c) / STEPS. */
  function BackOffset(objectX: real, c: int): real {
    var xStart := -objectX;
    var xEnd := 0.0;
    var s := (Steps - c) as real / Steps as real;
    xEnd - s * (xEnd - xStart)
  }

  /** The state-machine part of one loop iteration. */
  function Advance(env: Env, st: ArmState): (r: Advanced)
    // every state has exactly one successor on the fixed cycle
    ensures r.state.phase == (if Fires(st) then Next(st.phase) else st.phase)
    // START_CONV goes out once per visit of RELEASING and nowhere else
    ensures r.outbox == (if st.phase == Releasing then [StartConveyor] else [])
    // the detection is never rewritten here, except cleared at the end of the return
    ensures r.state.objectAngle == st.objectAngle
    ensures r.state.objectX == (if st.phase == TranslatingBack && st.backCounter <= 0 then 0.0 else st.objectX)
    // the lock is taken when a cycle starts and dropped when the return ends
    ensures r.state.locked == (if st.phase == Waiting && Fires(st) then true
                               else if st.phase == TranslatingBack && Fires(st) then false
                               else st.locked)
    // the go-down buffer is cleared in WAITING and consumed by the descent
    ensures st.phase == Waiting ==> !r.state.goDownReceived
    ensures st.phase == WaitingForDescend && Fires(st) ==> !r.state.goDownReceived
    ensures st.phase != Waiting && !(st.phase == WaitingForDescend && Fires(st)) ==>
              r.state.goDownReceived == st.goDownReceived
    ensures st.phase == Waiting && Fires(st) ==> r.state.cx0 == env.homeX && r.state.cy0 == env.homeY
    // an idle WAITING iteration only clears the go-down buffer
    ensures st.phase == Waiting && !Fires(st) ==> r.state == st.(goDownReceived := false) && r.log == []
    ensures st.phase == Translating ==>
              r.state.cx0 == st.cx0 + st.objectX && r.state.cy0 == st.cy0
              && r.log == HorizontalRamp(env, st.cx0, st.cy0, 0.0, -st.objectX)
    // WAITING2 turns wrist 3 to the grasp angle on every visit, the descending one included
    ensures st.phase == WaitingForDescend ==> r.log == [SetWrist3(st.objectAngle)]
    ensures st.phase == Descending ==> r.log == VerticalRamp(env, st.cx0, st.cy0, 0.0, DescendDepth)
    ensures st.phase == Grasping ==> r.log == [SetFingers(GripClosed), Wait(1)]
    // RELEASING turns half a revolution, opens the gripper and turns back
    ensures st.phase == Releasing ==>
              r.log == [SetPan(BaseShoulderPan - Pi), Wait(Steps), SetFingers(GripOpen), Wait(ReleaseSettle),
                        SetPan(BaseShoulderPan), Wait(Steps)]
    ensures st.phase == Ascending ==>
              r.state.cx0 == st.cx0 && r.state.cy0 == st.cy0 && r.state.backCounter == Steps
              && r.log == VerticalRamp(env, st.cx0, st.cy0, AscendStart, 0.0)
    ensures st.phase == TranslatingBack && st.backCounter > 0 ==>
              r.state == st.(backCounter := st.backCounter - 1) && |r.log| == 1
    ensures st.phase == TranslatingBack && st.backCounter <= 0 ==>
              r.state.cx0 == 0.0 && r.state.cy0 == st.cy0 && r.log == []
    ensures st.phase !in {Waiting, Translating, TranslatingBack} ==> r.state.cx0 == st.cx0 && r.state.cy0 == st.cy0
    ensures st.phase != Ascending ==> r.state.backCounter == (if st.phase == TranslatingBack && st.backCounter > 0 then st.backCounter - 1 else st.backCounter)
    ensures forall i :: 0 <= i < |r.log| ==> Level(r.log[i])
  {
    match st.phase
    case Waiting =>
      if st.objectX != 0.0 && !st.locked then
        Advanced(st.(phase := Translating, goDownReceived := false, locked := true,
                     cx0 := env.homeX, cy0 := env.homeY), [], [])
      else
        Advanced(st.(goDownReceived := false), [], [])
    case Translating =>
      var xEnd := -st.objectX;
      Advanced(st.(phase := WaitingForDescend, cx0 := st.cx0 - xEnd),
               HorizontalRamp(env, st.cx0, st.cy0, 0.0, xEnd), [])
    case WaitingForDescend =>
      if st.goDownReceived then
        Advanced(st.(phase := Descending, goDownReceived := false), [SetWrist3(st.objectAngle)], [])
      else
        Advanced(st, [SetWrist3(st.objectAngle)], [])
    case Descending =>
      Advanced(st.(phase := Grasping), VerticalRamp(env, st.cx0, st.cy0, 0.0, DescendDepth), [])
    case Grasping =>
      Advanced(st.(phase := Ascending), [SetFingers(GripClosed), Wait(1)], [])
    case Ascending =>
      var oldX, oldY := st.cx0, st.cy0;
      var log := VerticalRamp(env, st.cx0, st.cy0, AscendStart, 0.0);
      Advanced(st.(phase := TranslatingBack, cx0 := oldX, cy0 := oldY, backCounter := Steps), log, [])
    case TranslatingBack =>
      if st.backCounter > 0 then
        var x := BackOffset(st.objectX, st.backCounter);
        Advanced(st.(backCounter := st.backCounter - 1),
                 [TargetsFor(env.solve(HorizontalPoint(st.cx0, st.cy0, -x)), true)], [])
      else
        Advanced(st.(phase := Releasing, cx0 := 0.0, objectX := 0.0, locked := false), [], [])
    case Releasing =>
      Advanced(st.(phase := Waiting),
               [SetPan(BaseShoulderPan - Pi), Wait(Steps), SetFingers(GripOpen), Wait(ReleaseSettle),
                SetPan(BaseShoulderPan), Wait(Steps)],
               [StartConveyor])
  }

  datatype StepResult = StepResult(
    state: ArmState,
    camQueue: seq<Packet>,
    convQueue: seq<string>,
    log: seq<Command>,
    outbox: seq<string>)

  /** One iteration of the main loop. */
  function Step(env: Env, st: ArmState, camQueue: seq<Packet>, convQueue: seq<string>): (r: StepResult)
    // the camera queue is always drained, the conveyor queue loses one packet
    ensures r.camQueue == []
    ensures r.convQueue == if |convQueue| > 0 then convQueue[1..] else convQueue
    ensures r.outbox == (if st.phase == Releasing then [StartConveyor] else [])
    ensures r.state.phase == st.phase || r.state.phase == Next(st.phase)
  {
    var st1 := if |camQueue| > 0 then ReceiveCamera(st, camQueue[0]) else st;
    var (st2, convRest) := ReceiveConveyor(st1, convQueue);
    var a := Advance(env, st2);
    StepResult(a.state, [], convRest, a.log, a.outbox)
  }
}

=== FILE: arm_cycle.dfy ===
/** Properties of the arm controller over several loop iterations: the
    reachable-state invariant, the count-down of the return move retracing
    the outbound ramp, and one complete pick-and-place cycle. */
module ArmCycle {
  import opened Common
  import opened Messages
  import opened Kinematics
  import opened Arm

  /** Packets that arrive on the two receivers between two iterations. */
  datatype Arrival = Arrival(camera: seq<Packet>, conveyor: seq<string>)

  /** State, leftover conveyor queue, and everything emitted by a run. */
  datatype Trace = Trace(state: ArmState, convQueue: seq<string>, log: seq<Command>, outbox: seq<string>)

  /** One iteration of the main loop as a function value, so that facts about
      runs can be proved once for any loop body. */
  type StepFn = (ArmState, seq<Packet>, seq<string>) -> StepResult

  function Stepper(env: Env): StepFn {
    (st: ArmState, camQueue: seq<Packet>, convQueue: seq<string>) => Step(env, st, camQueue, convQueue)
  }

  /** Iterate a loop body once per arrival. The camera queue needs no
      carrying over: every iteration of the arm's loop drains it. */
  function RunWith(step: StepFn, st: ArmState, convQueue: seq<string>, arrivals: seq<Arrival>): Trace
    decreases |arrivals|
  {
    if |arrivals| == 0 then Trace(st, convQueue, [], [])
    else
      var r := step(st, arrivals[0].camera, convQueue + arrivals[0].conveyor);
      var t := RunWith(step, r.state, r.convQueue, arrivals[1..]);
      Trace(t.state, t.convQueue, r.log + t.log, r.outbox + t.outbox)
  }

  /** The arm controller iterated over a sequence of arrivals. */
  function Run(env: Env, st: ArmState, convQueue: seq<string>, arrivals: seq<Arrival>): Trace {
    RunWith(Stepper(env), st, convQueue, arrivals)
  }

  /** Mid-cycle: an object is locked in, and the reference point sits at the
      home point shifted by the object's offset. */
  predicate InCycle(env: Env, st: ArmState) {
    st.locked && st.objectX != 0.0 && st.cx0 == env.homeX + st.objectX && st.cy0 == env.homeY
  }

  /** The invariant of every state reachable from Init. */
  predicate Reachable(env: Env, st: ArmState) {
    match st.phase
    case Waiting => !st.locked && st.objectX == 0.0
    case Translating => st.locked && st.objectX != 0.0 && st.cx0 == env.homeX && st.cy0 == env.homeY
    case TranslatingBack => InCycle(env, st) && 0 <= st.backCounter <= Steps
    case Releasing => !st.locked && st.objectX == 0.0 && st.cx0 == 0.0 && st.cy0 == env.homeY
    case _ => InCycle(env, st)
  }

  lemma InitReachable(env: Env)
    ensures Reachable(env, Init(env))
  {
  }

  /** Every iteration, whatever arrives, keeps the invariant. */
  lemma StepKeepsReachable(env: Env, st: ArmState, camQueue: seq<Packet>, convQueue: seq<string>)
    requires Reachable(env, st)
    ensures Reachable(env, Step(env, st, camQueue, convQueue).state)
  {
  }

  /** In reachable states the lock is held exactly between the start of a
      cycle and the end of the return move, so WAITING never sees it set. */
  lemma LockOnlyMidCycle(env: Env, st: ArmState)
    requires Reachable(env, st)
    ensures st.locked <==> st.phase !in {Waiting, Releasing}
  {
  }

  /** A detection message from the camera, accepted in an idle WAITING,
      starts a cycle for its lateral offset and grasp angle. */
  lemma DetectionStartsCycle(env: Env, st: ArmState, x: real, y: real, z: real, a: real, convQueue: seq<string>)
    requires Reachable(env, st) && st.phase == Waiting
    requires y != 0.0
    ensures var r := Step(env, st, [FormatDetection(x, y, z, a)], convQueue);
            r.state.phase == Translating && r.state.objectX == y && r.state.objectAngle == a
            && r.state.locked && !r.state.goDownReceived && r.camQueue == []
  {
    DetectionParses(x, y, z, a);
  }

  /** A packet the parser rejects leaves an idle arm idle. */
  lemma MalformedIgnored(env: Env, st: ArmState, p: Packet, convQueue: seq<string>)
    requires st.phase == Waiting && st.objectX == 0.0 && !st.locked
    requires !Accepts(p)
    ensures var r := Step(env, st, [p], convQueue);
            r.state.phase == Waiting && r.state.objectX == 0.0 && !r.state.locked && r.log == []
  {
  }

  /** A go-down signal that arrives outside the current cycle's
      WAITING_FOR_DESCEND cannot start a later descent: WAITING clears it. */
  lemma WaitingClearsGoDown(env: Env, st: ArmState, camQueue: seq<Packet>, convQueue: seq<string>)
    requires st.phase == Waiting
    ensures !Step(env, st, camQueue, convQueue).state.goDownReceived
  {
  }

  /** The outbound translation from the home point for offset x. */
  function Outbound(env: Env, x: real): seq<Command> {
    HorizontalRamp(env, env.homeX, env.homeY, 0.0, -x)
  }

  /** The return step at counter c targets the point the outbound ramp
      reached at step c. */
  lemma BackPointRetraces(env: Env, x: real, c: nat)
    requires 0 < c <= Steps
    ensures HorizontalPoint(env.homeX + x, env.homeY, -BackOffset(x, c))
         == HorizontalPoint(env.homeX, env.homeY, RampPoint(0.0, -x, c))
  {
    var s := (Steps - c) as real / Steps as real;
    var u := c as real / Steps as real;
    assert s == 1.0 - u;
    assert s * x == x - u * x;
    assert BackOffset(x, c) == -(s * x);
    assert RampPoint(0.0, -x, c) == u * (-x);
    assert u * (-x) == -(u * x);
    assert (env.homeX + x) - (-BackOffset(x, c)) == env.homeX - RampPoint(0.0, -x, c);
  }

  /** One return step: the counter drops by one and the frame is outbound
      frame c. */
  lemma ReturnStep(env: Env, st: ArmState, camQueue: seq<Packet>, convQueue: seq<string>)
    requires Reachable(env, st) && st.phase == TranslatingBack && st.backCounter > 0
    ensures var r := Step(env, st, camQueue, convQueue);
            && r.state == st.(backCounter := st.backCounter - 1, goDownReceived := r.state.goDownReceived)
            && r.log == [Outbound(env, st.objectX)[st.backCounter]]
            && r.outbox == []
            && Reachable(env, r.state)
  {
    var c := st.backCounter;
    BackPointRetraces(env, st.objectX, c);
    var st1 := if |camQueue| > 0 then ReceiveCamera(st, camQueue[0]) else st;
    assert st1 == st;
    var st2 := ReceiveConveyor(st1, convQueue).0;
    var a := Advance(env, st2);
    assert a.log == [TargetsFor(env.solve(HorizontalPoint(st.cx0, st.cy0, -BackOffset(st.objectX, c))), true)];
  }

  /** The iteration after the count-down ends the return move. */
  lemma ReturnEnd(env: Env, st: ArmState, camQueue: seq<Packet>, convQueue: seq<string>)
    requires Reachable(env, st) && st.phase == TranslatingBack && st.backCounter == 0
    ensures var r := Step(env, st, camQueue, convQueue);
            && r.state.phase == Releasing && r.state.objectX == 0.0 && !r.state.locked
            && r.state.cx0 == 0.0 && r.log == [] && r.outbox == []
            && Reachable(env, r.state)
  {
  }

  /** One unfolding of Run. */
  lemma RunFirst(env: Env, st: ArmState, convQueue: seq<string>, arrivals: seq<Arrival>)
    requires |arrivals| > 0
    ensures var r := Step(env, st, arrivals[0].camera, convQueue + arrivals[0].conveyor);
            var t := Run(env, r.state, r.convQueue, arrivals[1..]);
            Run(env, st, convQueue, arrivals) == Then(r, t)
  {
    var r := Stepper(env)(st, arrivals[0].camera, convQueue + arrivals[0].conveyor);
    assert r == Step(env, st, arrivals[0].camera, convQueue + arrivals[0].conveyor);
  }

  /** A step followed by a run. */
  function Then(r: StepResult, t: Trace): Trace {
    Trace(t.state, t.convQueue, r.log + t.log, r.outbox + t.outbox)
  }

  /** Outcome of the return move for offset x started at counter c. */
  predicate Retraced(env: Env, x: real, c: nat, t: Trace) {
    && c <= Steps
    && t.state.phase == Releasing
    && t.state.objectX == 0.0 && !t.state.locked && t.state.cx0 == 0.0
    && t.outbox == []
    && |t.log| == c
    && forall i :: 0 <= i < c ==> t.log[i] == Outbound(env, x)[c - i]
  }

  lemma RetracedCons(env: Env, x: real, c: nat, log: seq<Command>, outbox: seq<string>, t: Trace)
    requires 0 < c <= Steps
    requires log == [Outbound(env, x)[c]] && outbox == []
    requires Retraced(env, x, c - 1, t)
    ensures Retraced(env, x, c, Trace(t.state, t.convQueue, log + t.log, outbox + t.outbox))
  {
    var all := log + t.log;
    forall i | 0 < i < c
      ensures all[i] == Outbound(env, x)[c - i]
    {
      assert all[i] == t.log[i - 1];
    }
  }

  /** From TRANSLATING_BACK with counter c, c + 1 iterations (whatever
      arrives) replay outbound frames c, c-1, ..., 1 and end in RELEASING with
      the detection cleared, the lock dropped and cx0 set to 0.0. */
  lemma {:induction false} ReturnRetracesOutbound(env: Env, st: ArmState, convQueue: seq<string>, arrivals: seq<Arrival>)
    requires Reachable(env, st) && st.phase == TranslatingBack
    requires |arrivals| == st.backCounter + 1
    ensures Retraced(env, st.objectX, st.backCounter, Run(env, st, convQueue, arrivals))
    decreases st.backCounter
  {
    var c := st.backCounter;
    var r := Step(env, st, arrivals[0].camera, convQueue + arrivals[0].conveyor);
    var t := Run(env, r.state, r.convQueue, arrivals[1..]);
    RunFirst(env, st, convQueue, arrivals);
    if c == 0 {
      ReturnEnd(env, st, arrivals[0].camera, convQueue + arrivals[0].conveyor);
      assert arrivals[1..] == [];
    } else {
      ReturnStep(env, st, arrivals[0].camera, convQueue + arrivals[0].conveyor);
      ReturnRetracesOutbound(env, r.state, r.convQueue, arrivals[1..]);
      RetracedCons(env, st.objectX, c, r.log, r.outbox, t);
    }
  }

  /** WAITING_FOR_DESCEND without a buffered go-down and with nothing on the
      conveyor channel holds position: only wrist 3 is re-commanded. */
  lemma {:induction false} HoldsUntilGoDown(env: Env, st: ArmState, arrivals: seq<Arrival>)
    requires st.phase == WaitingForDescend && !st.goDownReceived
    requires forall i :: 0 <= i < |arrivals| ==> arrivals[i].conveyor == []
    ensures var t := Run(env, st, [], arrivals);
            t.state == st && t.convQueue == [] && t.outbox == []
            && t.log == seq(|arrivals|, i => SetWrist3(st.objectAngle))
    decreases |arrivals|
  {
    if |arrivals| > 0 {
      var r := Step(env, st, arrivals[0].camera, [] + arrivals[0].conveyor);
      assert r.state == st && r.log == [SetWrist3(st.objectAngle)];
      HoldsUntilGoDown(env, st, arrivals[1..]);
    }
  }

  /** Sequential composition of two runs. */
  function Concat(t1: Trace, t2: Trace): Trace {
    Trace(t2.state, t2.convQueue, t1.log + t2.log, t1.outbox + t2.outbox)
  }

  lemma {:induction false} RunWithAppend(step: StepFn, st: ArmState, convQueue: seq<string>, a: seq<Arrival>, b: seq<Arrival>)
    ensures var t1 := RunWith(step, st, convQueue, a);
            RunWith(step, st, convQueue, a + b) == Concat(t1, RunWith(step, t1.state, t1.convQueue, b))
    decreases |a|
  {
    if |a| == 0 {
      assert a + b == b;
    } else {
      assert (a + b)[0] == a[0];
      assert (a + b)[1..] == a[1..] + b;
      var r := step(st, a[0].camera, convQueue + a[0].conveyor);
      RunWithAppend(step, r.state, r.convQueue, a[1..], b);
    }
  }

  lemma RunAppend(env: Env, st: ArmState, convQueue: seq<string>, a: seq<Arrival>, b: seq<Arrival>)
    ensures var t1 := Run(env, st, convQueue, a);
            Run(env, st, convQueue, a + b) == Concat(t1, Run(env, t1.state, t1.convQueue, b))
  {
    RunWithAppend(Stepper(env), st, convQueue, a, b);
  }

  /** The WAITING guard: an offset just taken from the camera, with no lock
      held, starts the cycle from the home point. */
  lemma StartStep(env: Env, st: ArmState)
    requires st.phase == Waiting && st.objectX != 0.0 && !st.locked
    ensures var a := Advance(env, st);
            && a.state.phase == Translating && a.state.objectX == st.objectX
            && a.state.locked && !a.state.goDownReceived && Reachable(env, a.state)
            && a.log == [] && a.outbox == []
  {
  }

  /** TRANSLATING runs the whole outbound ramp in one iteration. */
  lemma TranslateStep(env: Env, st: ArmState, camQueue: seq<Packet>)
    requires Reachable(env, st) && st.phase == Translating && !st.goDownReceived
    ensures var r := Step(env, st, camQueue, []);
            && r.state.phase == WaitingForDescend && r.state.objectX == st.objectX
            && !r.state.goDownReceived && Reachable(env, r.state)
            && r.convQueue == [] && r.log == Outbound(env, st.objectX) && r.outbox == []
  {
  }

  /** A go-down at the head of the conveyor queue releases the descent. */
  lemma DescendStep(env: Env, st: ArmState, camQueue: seq<Packet>, convQueue: seq<string>)
    requires Reachable(env, st) && st.phase == WaitingForDescend
    requires |convQueue| > 0 && convQueue[0] == GoDown
    ensures var r := Step(env, st, camQueue, convQueue);
            && r.state.phase == Descending && Reachable(env, r.state) && r.outbox == []
            && r.log == [SetWrist3(st.objectAngle)]
  {
  }

  /** The descent iteration turns wrist 3 to the grasp angle, and only the
      next iteration runs the downward ramp, at the angle just commanded. */
  lemma GraspAngleBeforeDescent(env: Env, st: ArmState, cam1: seq<Packet>, cam2: seq<Packet>, convQueue: seq<string>)
    requires Reachable(env, st) && st.phase == WaitingForDescend
    requires |convQueue| > 0 && convQueue[0] == GoDown
    ensures var r1 := Step(env, st, cam1, convQueue);
            var r2 := Step(env, r1.state, cam2, r1.convQueue);
            && r1.log == [SetWrist3(st.objectAngle)]
            && r2.log == VerticalRamp(env, st.cx0, st.cy0, 0.0, DescendDepth)
            && r2.state.phase == Grasping && r2.state.objectAngle == st.objectAngle
  {
    DescendStep(env, st, cam1, convQueue);
  }

  /** Two "1"s queued in WAITING2 give one descent: the first is consumed by
      the transition, the second is only buffered while DESCENDING moves on
      to GRASPING; the next WAITING clears it (WaitingClearsGoDown). */
  lemma DuplicateGoDownOneDescent(env: Env, st: ArmState, cam1: seq<Packet>, cam2: seq<Packet>)
    requires Reachable(env, st) && st.phase == WaitingForDescend
    ensures var r1 := Step(env, st, cam1, [GoDown, GoDown]);
            && r1.state.phase == Descending && !r1.state.goDownReceived && r1.convQueue == [GoDown]
            && var r2 := Step(env, r1.state, cam2, r1.convQueue);
               r2.state.phase == Grasping && r2.state.goDownReceived && r2.convQueue == []
  {
    var r1 := Step(env, st, cam1, [GoDown, GoDown]);
    assert [GoDown, GoDown][1..] == [GoDown];
    assert r1.state.phase == Descending;
    assert [GoDown][1..] == [];
  }

  /** DESCENDING, GRASPING, ASCENDING and RELEASING always advance. */
  lemma ForcedStep(env: Env, st: ArmState, camQueue: seq<Packet>, convQueue: seq<string>)
    requires Reachable(env, st) && st.phase in {Descending, Grasping, Ascending, Releasing}
    ensures var r := Step(env, st, camQueue, convQueue);
            && r.state.phase == Next(st.phase) && Reachable(env, r.state)
            && r.outbox == (if st.phase == Releasing then [StartConveyor] else [])
            && (st.phase == Ascending ==> r.state.backCounter == Steps)
            && (st.phase == Releasing ==> r.state.objectX == 0.0 && !r.state.locked)
  {
    StepKeepsReachable(env, st, camQueue, convQueue);
  }

  /** How a cycle ends: back in WAITING, detection cleared, lock released,
      and START_CONV sent exactly once. */
  predicate CycleDone(t: Trace) {
    t.state.phase == Waiting && t.state.objectX == 0.0 && !t.state.locked && t.outbox == [StartConveyor]
  }

  /** A silent step in front of a run that ends the cycle still ends it. */
  lemma ThenDone(r: StepResult, t: Trace)
    requires r.outbox == [] && CycleDone(t)
    ensures CycleDone(Then(r, t))
  {
    assert r.outbox + t.outbox == t.outbox;
  }

  /** Ticks of one cycle after the go-down: WAITING_FOR_DESCEND, DESCENDING,
      GRASPING, ASCENDING, Steps + 1 of TRANSLATING_BACK, RELEASING. */
  const TailTicks: nat := Steps + 6

  /** TRANSLATING_BACK to the end: the count-down, then RELEASING. */
  lemma FromReturn(env: Env, st: ArmState, convQueue: seq<string>, arrivals: seq<Arrival>)
    requires Reachable(env, st) && st.phase == TranslatingBack && st.backCounter == Steps
    requires |arrivals| == Steps + 2
    ensures CycleDone(Run(env, st, convQueue, arrivals))
  {
    var back, last := arrivals[..Steps + 1], arrivals[Steps + 1..];
    assert arrivals == back + last;
    RunAppend(env, st, convQueue, back, last);
    var tb := Run(env, st, convQueue, back);
    ReturnRetracesOutbound(env, st, convQueue, back);
    RunReachable(env, st, convQueue, back);
    FromReleasing(env, tb.state, tb.convQueue, last);
  }

  lemma FromReleasing(env: Env, st: ArmState, convQueue: seq<string>, arrivals: seq<Arrival>)
    requires Reachable(env, st) && st.phase == Releasing
    requires |arrivals| == 1
    ensures CycleDone(Run(env, st, convQueue, arrivals))
  {
    RunFirst(env, st, convQueue, arrivals);
    ForcedStep(env, st, arrivals[0].camera, convQueue + arrivals[0].conveyor);
    assert arrivals[1..] == [];
  }

  lemma FromAscending(env: Env, st: ArmState, convQueue: seq<string>, arrivals: seq<Arrival>)
    requires Reachable(env, st) && st.phase == Ascending
    requires |arrivals| == Steps + 3
    ensures CycleDone(Run(env, st, convQueue, arrivals))
  {
    RunFirst(env, st, convQueue, arrivals);
    var r := Step(env, st, arrivals[0].camera, convQueue + arrivals[0].conveyor);
    ForcedStep(env, st, arrivals[0].camera, convQueue + arrivals[0].conveyor);
    FromReturn(env, r.state, r.convQueue, arrivals[1..]);
    ThenDone(r, Run(env, r.state, r.convQueue, arrivals[1..]));
  }

  lemma FromGrasping(env: Env, st: ArmState, convQueue: seq<string>, arrivals: seq<Arrival>)
    requires Reachable(env, st) && st.phase == Grasping
    requires |arrivals| == Steps + 4
    ensures CycleDone(Run(env, st, convQueue, arrivals))
  {
    RunFirst(env, st, convQueue, arrivals);
    var r := Step(env, st, arrivals[0].camera, convQueue + arrivals[0].conveyor);
    ForcedStep(env, st, arrivals[0].camera, convQueue + arrivals[0].conveyor);
    FromAscending(env, r.state, r.convQueue, arrivals[1..]);
    ThenDone(r, Run(env, r.state, r.convQueue, arrivals[1..]));
  }

  lemma FromDescending(env: Env, st: ArmState, convQueue: seq<string>, arrivals: seq<Arrival>)
    requires Reachable(env, st) && st.phase == Descending
    requires |arrivals| == Steps + 5
    ensures CycleDone(Run(env, st, convQueue, arrivals))
  {
    RunFirst(env, st, convQueue, arrivals);
    var r := Step(env, st, arrivals[0].camera, convQueue + arrivals[0].conveyor);
    ForcedStep(env, st, arrivals[0].camera, convQueue + arrivals[0].conveyor);
    FromGrasping(env, r.state, r.convQueue, arrivals[1..]);
    ThenDone(r, Run(env, r.state, r.convQueue, arrivals[1..]));
  }

  /** From the iteration that consumes the go-down to the return to WAITING:
      the arm releases the object and sends START_CONV exactly once. */
  lemma CycleTail(env: Env, st: ArmState, convQueue: seq<string>, arrivals: seq<Arrival>)
    requires Reachable(env, st) && st.phase == WaitingForDescend
    requires |arrivals| == TailTicks
    requires |convQueue + arrivals[0].conveyor| > 0 && (convQueue + arrivals[0].conveyor)[0] == GoDown
    ensures CycleDone(Run(env, st, convQueue, arrivals))
  {
    RunFirst(env, st, convQueue, arrivals);
    var r := Step(env, st, arrivals[0].camera, convQueue + arrivals[0].conveyor);
    DescendStep(env, st, arrivals[0].camera, convQueue + arrivals[0].conveyor);
    FromDescending(env, r.state, r.convQueue, arrivals[1..]);
    ThenDone(r, Run(env, r.state, r.convQueue, arrivals[1..]));
  }

  /** Runs keep the invariant. */
  lemma {:induction false} RunReachable(env: Env, st: ArmState, convQueue: seq<string>, arrivals: seq<Arrival>)
    requires Reachable(env, st)
    ensures Reachable(env, Run(env, st, convQueue, arrivals).state)
    decreases |arrivals|
  {
    if |arrivals| > 0 {
      RunFirst(env, st, convQueue, arrivals);
      var r := Step(env, st, arrivals[0].camera, convQueue + arrivals[0].conveyor);
      StepKeepsReachable(env, st, arrivals[0].camera, convQueue + arrivals[0].conveyor);
      RunReachable(env, r.state, r.convQueue, arrivals[1..]);
    }
  }

  /** One full pick-and-place cycle. An idle arm receives the camera's
      detection with a non-zero y, the go-down signal arrives `delay`
      iterations after the translation has finished, and later camera and
      conveyor traffic is arbitrary: the arm translates out along the
      outbound ramp for y, descends, grasps, returns, releases, emits
      START_CONV exactly once and is back in WAITING with the detection
      cleared and the lock released. */
  lemma FullCycle(env: Env, st: ArmState, x: real, y: real, z: real, a: real, arrivals: seq<Arrival>, delay: nat)
    requires Reachable(env, st) && st.phase == Waiting
    requires y != 0.0
    requires |arrivals| == 2 + delay + TailTicks
    requires arrivals[0].camera == [FormatDetection(x, y, z, a)]
    requires forall i :: 0 <= i < 2 + delay ==> arrivals[i].conveyor == []
    requires |arrivals[2 + delay].conveyor| > 0 && arrivals[2 + delay].conveyor[0] == GoDown
    ensures var t := Run(env, st, [], arrivals);
            CycleDone(t) && |t.log| >= Steps + 1 && t.log[..Steps + 1] == Outbound(env, y)
  {
    RunFirst(env, st, [], arrivals);
    assert [] + arrivals[0].conveyor == [];
    var r := Step(env, st, arrivals[0].camera, []);
    DetectionStartsCycle(env, st, x, y, z, a, []);
    StepKeepsReachable(env, st, arrivals[0].camera, []);
    FromTranslating(env, r.state, arrivals[1..], delay);
    var t := Run(env, r.state, r.convQueue, arrivals[1..]);
    ThenDone(r, t);
    assert r.log == [];
    assert r.log + t.log == t.log;
  }

  lemma FromTranslating(env: Env, st: ArmState, arrivals: seq<Arrival>, delay: nat)
    requires Reachable(env, st) && st.phase == Translating && !st.goDownReceived
    requires |arrivals| == 1 + delay + TailTicks
    requires forall i :: 0 <= i < 1 + delay ==> arrivals[i].conveyor == []
    requires |arrivals[1 + delay].conveyor| > 0 && arrivals[1 + delay].conveyor[0] == GoDown
    ensures var t := Run(env, st, [], arrivals);
            CycleDone(t) && |t.log| >= Steps + 1 && t.log[..Steps + 1] == Outbound(env, st.objectX)
  {
    RunFirst(env, st, [], arrivals);
    assert [] + arrivals[0].conveyor == [];
    var r := Step(env, st, arrivals[0].camera, []);
    TranslateStep(env, st, arrivals[0].camera);
    var rest := arrivals[1..];
    FromWaitingForDescend(env, r.state, rest, delay);
    var t := Run(env, r.state, r.convQueue, rest);
    ThenDone(r, t);
    assert (r.log + t.log)[..Steps + 1] == r.log;
  }

  lemma FromWaitingForDescend(env: Env, st: ArmState, arrivals: seq<Arrival>, delay: nat)
    requires Reachable(env, st) && st.phase == WaitingForDescend && !st.goDownReceived
    requires |arrivals| == delay + TailTicks
    requires forall i :: 0 <= i < delay ==> arrivals[i].conveyor == []
    requires |arrivals[delay].conveyor| > 0 && arrivals[delay].conveyor[0] == GoDown
    ensures CycleDone(Run(env, st, [], arrivals))
  {
    var wait, tail := arrivals[..delay], arrivals[delay..];
    assert arrivals == wait + tail;
    RunAppend(env, st, [], wait, tail);
    HoldsUntilGoDown(env, st, wait);
    var tw := Run(env, st, [], wait);
    assert tail[0] == arrivals[delay];
    assert [] + tail[0].conveyor == tail[0].conveyor;
    CycleTail(env, st, [], tail);
    var tt := Run(env, st, [], tail);
    assert tw.outbox + tt.outbox == tt.outbox;
  }

  /** A "1" read during the TRANSLATING iteration is kept in the buffer:
      the arm ends that iteration in WAITING2 ready to descend. */
  lemma TranslateBuffersGoDown(env: Env, st: ArmState, camQueue: seq<Packet>, convQueue: seq<string>)
    requires Reachable(env, st) && st.phase == Translating
    requires |convQueue| > 0 && convQueue[0] == GoDown
    ensures var r := Step(env, st, camQueue, convQueue);
            && r.state.phase == WaitingForDescend && r.state.goDownReceived && Reachable(env, r.state)
            && r.convQueue == convQueue[1..] && r.log == Outbound(env, st.objectX) && r.outbox == []
  {
  }

  /** WAITING2 with the go-down already buffered descends whatever the
      conveyor queue holds. */
  lemma BufferedDescendStep(env: Env, st: ArmState, camQueue: seq<Packet>, convQueue: seq<string>)
    requires Reachable(env, st) && st.phase == WaitingForDescend && st.goDownReceived
    ensures var r := Step(env, st, camQueue, convQueue);
            && r.state.phase == Descending && !r.state.goDownReceived && Reachable(env, r.state)
            && r.log == [SetWrist3(st.objectAngle)] && r.outbox == []
  {
  }

  /** From TRANSLATING with a "1" read in that same iteration, the cycle
      completes without any further go-down. */
  lemma FromTranslatingEarly(env: Env, st: ArmState, arrivals: seq<Arrival>)
    requires Reachable(env, st) && st.phase == Translating
    requires |arrivals| == 1 + TailTicks
    requires |arrivals[0].conveyor| > 0 && arrivals[0].conveyor[0] == GoDown
    ensures var t := Run(env, st, [], arrivals);
            CycleDone(t) && |t.log| >= Steps + 1 && t.log[..Steps + 1] == Outbound(env, st.objectX)
  {
    RunFirst(env, st, [], arrivals);
    assert [] + arrivals[0].conveyor == arrivals[0].conveyor;
    var r := Step(env, st, arrivals[0].camera, arrivals[0].conveyor);
    TranslateBuffersGoDown(env, st, arrivals[0].camera, arrivals[0].conveyor);
    var rest := arrivals[1..];
    RunFirst(env, r.state, r.convQueue, rest);
    var r2 := Step(env, r.state, rest[0].camera, r.convQueue + rest[0].conveyor);
    BufferedDescendStep(env, r.state, rest[0].camera, r.convQueue + rest[0].conveyor);
    FromDescending(env, r2.state, r2.convQueue, rest[1..]);
    var t2 := Run(env, r2.state, r2.convQueue, rest[1..]);
    ThenDone(r2, t2);
    var t := Run(env, r.state, r.convQueue, rest);
    ThenDone(r, t);
    assert (r.log + t.log)[..Steps + 1] == r.log;
  }

  /** The full cycle when the conveyor's "1" is read in the TRANSLATING
      iteration, right after the detection: it is kept, and the arm descends
      on the next iteration. */
  lemma FullCycleGoDownInTranslation(env: Env, st: ArmState, x: real, y: real, z: real, a: real, arrivals: seq<Arrival>)
    requires Reachable(env, st) && st.phase == Waiting
    requires y != 0.0
    requires |arrivals| == 2 + TailTicks
    requires arrivals[0].camera == [FormatDetection(x, y, z, a)] && arrivals[0].conveyor == []
    requires |arrivals[1].conveyor| > 0 && arrivals[1].conveyor[0] == GoDown
    ensures var t := Run(env, st, [], arrivals);
            CycleDone(t) && |t.log| >= Steps + 1 && t.log[..Steps + 1] == Outbound(env, y)
  {
    RunFirst(env, st, [], arrivals);
    assert [] + arrivals[0].conveyor == [];
    var r := Step(env, st, arrivals[0].camera, []);
    DetectionStartsCycle(env, st, x, y, z, a, []);
    StepKeepsReachable(env, st, arrivals[0].camera, []);
    FromTranslatingEarly(env, r.state, arrivals[1..]);
    var t := Run(env, r.state, r.convQueue, arrivals[1..]);
    ThenDone(r, t);
    assert r.log + t.log == t.log;
  }

  /** A "1" read in the detection iteration is lost: the WAITING branch that
      starts the cycle clears the buffer, so after the translation the arm
      sits in WAITING2 with nothing buffered and nothing queued, and it holds
      there until another "1" arrives (HoldsUntilGoDown). */
  lemma GoDownAtDetectionLost(env: Env, st: ArmState, x: real, y: real, z: real, a: real, cam2: seq<Packet>)
    requires Reachable(env, st) && st.phase == Waiting
    requires y != 0.0
    ensures var r1 := Step(env, st, [FormatDetection(x, y, z, a)], [GoDown]);
            var r2 := Step(env, r1.state, cam2, r1.convQueue);
            && r1.state.phase == Translating && !r1.state.goDownReceived && r1.convQueue == []
            && r2.state.phase == WaitingForDescend && !r2.state.goDownReceived && r2.convQueue == []
  {
    var r1 := Step(env, st, [FormatDetection(x, y, z, a)], [GoDown]);
    DetectionStartsCycle(env, st, x, y, z, a, [GoDown]);
    StepKeepsReachable(env, st, [FormatDetection(x, y, z, a)], [GoDown]);
    assert [GoDown][1..] == [];
    TranslateStep(env, r1.state, cam2);
  }

  /** The end-to-end scenario: an idle arm receives "x 0.25 z 0.4" from the
      camera, the go-down arrives three iterations after the translation, and
      the cycle completes with exactly one START_CONV. */
  lemma QuarterMetreScenario(env: Env, arrivals: seq<Arrival>)
    requires |arrivals| == 1 + 3 + TailTicks
    requires forall i :: 0 <= i < 1 + 3 ==> arrivals[i].conveyor == []
    requires arrivals[1 + 3].conveyor == [GoDown]
    ensures var r := Step(env, Init(env), [FormatDetection(0.0, 0.25, 0.0, 0.4)], []);
            && r.state.phase == Translating && r.state.objectX == 0.25 && r.state.objectAngle == 0.4
            && CycleDone(Run(env, r.state, r.convQueue, arrivals))
  {
    InitReachable(env);
    DetectionStartsCycle(env, Init(env), 0.0, 0.25, 0.0, 0.4, []);
    var r := Step(env, Init(env), [FormatDetection(0.0, 0.25, 0.0, 0.4)], []);
    StepKeepsReachable(env, Init(env), [FormatDetection(0.0, 0.25, 0.0, 0.4)], []);
    FromTranslating(env, r.state, arrivals, 3);
  }
}

=== FILE: camera.dfy ===
/** The camera controller: on a STOP from the conveyor, poll the simulator's
    object recognition, send the image to the detection server, and pass the
    object's position and the detected angle on to the arm. */
module Camera {
  import opened Common
  import opened Messages
  import opened Framing

  /** The recognition count is read at most this many times per STOP. */
  const MaxPolls: nat := 5

  /** An image as the camera device returns it: width, height and four
      bytes (B, G, R, A) per pixel. */
  datatype Image = Image(width: nat, height: nat, bgra: seq<Byte>)

  /** The camera device returns no image at all, or `width * height` BGRA
      pixels, which the reshape to (h, w, 4) relies on. */
  predicate DeviceImage(img: Image) {
    |img.bgra| == 0 || FullImage(img)
  }

  predicate FullImage(img: Image) {
    |img.bgra| == img.width * img.height * 4
  }

  /** The frame sent for an image: the same shape, pixels repacked to RGB. */
  function ImageFrame(img: Image): (f: Frame)
    requires FullImage(img)
    ensures f.width == img.width && f.height == img.height
    ensures |f.pixels| == f.height * f.width * 3
    ensures forall i: nat :: i < img.width * img.height ==> PixelRepacked(img.bgra, f.pixels, i)
  {
    RepackedFrameSize(img.width, img.height, img.bgra);
    RepackMovesChannels(img.bgra);
    Frame(img.width, img.height, Repack(img.bgra))
  }

  /** What the socket does once the request has been handed to it: an
      exception somewhere in the exchange (including a socket that never
      connected), or the bytes `recv(8)` returns. */
  datatype Reply = Raised | Received(bytes: seq<Byte>)

  /** The unpacking of an eight-byte reply as a native double, left abstract. */
  type DoubleReader = seq<Byte> -> real

  /** The outcome of send_image_to_yolo: the bytes handed to the socket, the
      returned angle in degrees, and whether that angle came from the server
      (only then is it remembered). */
  datatype Exchange = Exchange(written: seq<Byte>, angleDeg: real, answered: bool)

  /** The header words `struct.pack` produces before one of them fails. */
  function PackedPrefix(f: Frame): (b: seq<Byte>)
    requires !Encodable(f)
    ensures |b| < 12
  {
    if !FitsU32(f.width) then []
    else if !FitsU32(f.height) then EncodeU32(f.width)
    else EncodeU32(f.width) + EncodeU32(f.height)
  }

  function SendImage(img: Image, reply: Reply, readDouble: DoubleReader): (e: Exchange)
    requires DeviceImage(img)
    // no image: nothing sent
    ensures |img.bgra| == 0 ==> e == Exchange([], NoDetection, false)
    // a complete request goes out whenever the header words can be packed
    ensures |img.bgra| > 0 && Encodable(ImageFrame(img)) ==> e.written == EncodeRequest(ImageFrame(img))
    ensures |img.bgra| > 0 && !Encodable(ImageFrame(img)) ==> |e.written| < 12
    // the answer is used only when the request went out and exactly eight bytes came back
    ensures e.answered <==> |img.bgra| > 0 && Encodable(ImageFrame(img)) && reply.Received? && |reply.bytes| == 8
    ensures e.answered ==> e.angleDeg == readDouble(reply.bytes)
    ensures !e.answered ==> e.angleDeg == NoDetection
  {
    if |img.bgra| == 0 then Exchange([], NoDetection, false)
    else
      var f := ImageFrame(img);
      if !Encodable(f) then Exchange(PackedPrefix(f), NoDetection, false)
      else
        var req := EncodeRequest(f);
        match reply
        case Raised => Exchange(req, NoDetection, false)
        case Received(bytes) =>
          if |bytes| == 8 then Exchange(req, readDouble(bytes), true)
          else Exchange(req, NoDetection, false)
  }

  datatype Polled = Polled(count: nat, polls: nat, waits: nat)

  /** The recognition poll from read i on: `counts[j]` is what read j would
      return; a simulation step follows every read that saw nothing. */
  function PollFrom(counts: seq<nat>, i: nat): (r: Polled)
    requires |counts| == MaxPolls && i < MaxPolls
    ensures i < r.polls <= MaxPolls
    ensures r.count == counts[r.polls - 1]
    ensures forall j :: i <= j < r.polls - 1 ==> counts[j] == 0
    ensures r.count > 0 || r.polls == MaxPolls
    ensures r.waits == if r.count > 0 then r.polls - 1 else r.polls
    decreases MaxPolls - i
  {
    if counts[i] > 0 then Polled(counts[i], i + 1, i)
    else if i + 1 == MaxPolls then Polled(0, MaxPolls, MaxPolls)
    else PollFrom(counts, i + 1)
  }

  /** The whole poll: it stops at the first positive count, and finds
      objects exactly when one of the five reads would. */
  function Poll(counts: seq<nat>): (r: Polled)
    requires |counts| == MaxPolls
    ensures 1 <= r.polls <= MaxPolls
    ensures r.count == counts[r.polls - 1]
    ensures forall j :: 0 <= j < r.polls - 1 ==> counts[j] == 0
    ensures r.count > 0 <==> exists j :: 0 <= j < MaxPolls && counts[j] > 0
    ensures r.waits <= MaxPolls
  {
    PollFrom(counts, 0)
  }

  /** The degrees-to-radians step: a missing angle becomes 0. */
  function AngleToRadians(deg: real): (rad: real)
    ensures deg == NoDetection ==> rad == 0.0
    ensures deg != NoDetection ==> rad * 180.0 == deg * Pi
  {
    if deg == NoDetection then 0.0 else deg * Pi / 180.0
  }

  /** Degrees map to radians monotonically, a right angle to Pi / 2 and a
      half turn to Pi. */
  lemma AngleToRadiansMonotone(d1: real, d2: real)
    requires d1 != NoDetection && d2 != NoDetection && d1 <= d2
    ensures AngleToRadians(d1) <= AngleToRadians(d2)
    ensures AngleToRadians(90.0) == Pi / 2.0 && AngleToRadians(180.0) == Pi
  {
    assert d1 * Pi <= d2 * Pi;
  }

  datatype CameraState = CameraState(lastAngle: real)

  function Init(): CameraState {
    CameraState(NoDetection)
  }

  /** The controller starts with no remembered angle and keeps it until a
      STOP's exchange with the server is answered. */
  lemma InitKeptUntilAnswered(inbox: seq<string>, sc: Scene, readDouble: DoubleReader)
    requires ValidScene(sc)
    ensures Init().lastAngle == NoDetection
    ensures var r := Tick(Init(), inbox, sc, readDouble);
            r.state == Init() <== !(|inbox| > 0 && inbox[0] == Stop && SendImage(sc.image, sc.reply, readDouble).answered)
  {
  }

  /** What the simulator and the server hold during one STOP handling: the
      recognition counts of the five possible reads, the first object's
      position, the image, and the server's reply. */
  datatype Scene = Scene(counts: seq<nat>, position: (real, real, real), image: Image, reply: Reply)

  predicate ValidScene(sc: Scene) {
    |sc.counts| == MaxPolls && DeviceImage(sc.image)
  }

  datatype Ticked = Ticked(state: CameraState, inbox: seq<string>, toArm: seq<Packet>, written: seq<Byte>, waits: nat)

  /** One pass of the main loop: the head message, if any, is consumed; a
      STOP runs the poll and the exchange with the server, and a detection
      goes to the arm only when recognition found an object. */
  function Tick(st: CameraState, inbox: seq<string>, sc: Scene, readDouble: DoubleReader): (r: Ticked)
    requires ValidScene(sc)
    ensures r.inbox == if |inbox| > 0 then inbox[1..] else inbox
    ensures |r.toArm| <= 1
    ensures |r.toArm| == 1 <==> |inbox| > 0 && inbox[0] == Stop && exists j :: 0 <= j < MaxPolls && sc.counts[j] > 0
    ensures |inbox| > 0 && inbox[0] == Stop ==>
              var e := SendImage(sc.image, sc.reply, readDouble);
              && r.written == e.written
              && r.state.lastAngle == (if e.answered then e.angleDeg else st.lastAngle)
              && (|r.toArm| == 1 ==>
                    r.toArm[0] == FormatDetection(sc.position.0, sc.position.1, sc.position.2, AngleToRadians(e.angleDeg)))
    ensures |inbox| > 0 && inbox[0] == Stop ==> r.waits == Poll(sc.counts).waits
    ensures !(|inbox| > 0 && inbox[0] == Stop) ==> r == Ticked(st, r.inbox, [], [], 0)
  {
    if |inbox| == 0 then Ticked(st, inbox, [], [], 0)
    else if inbox[0] != Stop then Ticked(st, inbox[1..], [], [], 0)
    else
      var polled := Poll(sc.counts);
      var e := SendImage(sc.image, sc.reply, readDouble);
      var st' := if e.answered then CameraState(e.angleDeg) else st;
      var out := if polled.count > 0 then
                   [FormatDetection(sc.position.0, sc.position.1, sc.position.2, AngleToRadians(e.angleDeg))]
                 else [];
      Ticked(st', inbox[1..], out, e.written, polled.waits)
  }

  /** A camera that returns no image, whatever its size, sends nothing to the
      server; a recognised object is still reported to the arm, with angle 0. */
  lemma EmptyImageStillReports(st: CameraState, inbox: seq<string>, sc: Scene, readDouble: DoubleReader)
    requires ValidScene(sc) && |sc.image.bgra| == 0
    requires |inbox| > 0 && inbox[0] == Stop && sc.counts[0] > 0
    ensures var r := Tick(st, inbox, sc, readDouble);
            && r.written == [] && r.state == st
            && r.toArm == [FormatDetection(sc.position.0, sc.position.1, sc.position.2, 0.0)]
  {
    assert Poll(sc.counts).count > 0;
  }
}

=== FILE: common.dfy ===
/** Small shared vocabulary: an optional value and the float constants the
    controllers take from Python's `math` module. */
module Common {

  /** The conventional Some/None datatype, used for values a device or a
      parser may fail to deliver. */
  datatype Option<+T> = None | Some(value: T)

  /** A value or the reason there is none, in place of an exception that
      ends a loop. */
  datatype Result<+T, +E> = Ok(value: T) | Err(error: E)

  /** `math.pi`, written as the shortest decimal that reads back as the same double. */
  const Pi: real := 3.141592653589793

  function Min(a: real, b: real): real {
    if a <= b then a else b
  }

  function Max(a: real, b: real): real {
    if a >= b then a else b
  }
}

=== FILE: conveyor.dfy ===
/** The conveyor controller's loop body. One Tick runs the statements of
    one iteration in their source order, each as its own stage: arm message,
    stop latch, timed resume, position unlatch, go-down signal, go-down
    latch release, hard timer. */
module Conveyor {
  import opened Common
  import opened Messages

  /** Sensor thresholds and the dwell time of a stop. */
  const Threshold: real := 800.0
  const Threshold3: real := 800.0
  const StopDuration: real := 2.0
  /** stop_start_time while no stop is latched. */
  const NoStop: real := -1.0

  /** Command-line settings: nominal belt speed and optional hard timer
      (0 or less means no timer). */
  datatype Config = Config(speed: real, timer: real)

  /** `flag` is the stop latch (source values 0 and 1), `velocity` the belt
      motor's commanded velocity, `halted` whether the loop has exited. */
  datatype ConveyorState = ConveyorState(
    flag: bool,
    stopStart: real,
    goDownSent: bool,
    velocity: real,
    halted: bool)

  /** Readings of one iteration; ds3 is an optional device. */
  datatype Sensors = Sensors(d1: real, d2: real, d3: Option<real>, now: real)

  /** Messages produced in one iteration, per channel. */
  datatype Emitted = Emitted(toCamera: seq<string>, toArm: seq<string>)

  function Init(cfg: Config): ConveyorState {
    ConveyorState(false, NoStop, false, cfg.speed, false)
  }

  /** The belt either stands still or runs at nominal speed. */
  predicate BeltCommanded(cfg: Config, st: ConveyorState) {
    st.velocity == 0.0 || st.velocity == cfg.speed
  }

  /** The stop latch and its timestamp agree. */
  predicate LatchConsistent(st: ConveyorState) {
    (!st.flag && st.stopStart == NoStop) || (st.flag && st.stopStart >= 0.0)
  }

  /** Stage 1: one arm packet per iteration; START_CONV restores the speed. */
  function HandleArm(cfg: Config, st: ConveyorState, queue: seq<string>): (r: (ConveyorState, seq<string>))
    ensures |queue| > 0 ==> r.1 == queue[1..]
    ensures |queue| == 0 ==> r.1 == queue
    ensures |queue| > 0 && queue[0] == StartConveyor ==> r.0 == st.(velocity := cfg.speed)
    ensures !(|queue| > 0 && queue[0] == StartConveyor) ==> r.0 == st
  {
    if |queue| > 0 then
      (if queue[0] == StartConveyor then st.(velocity := cfg.speed) else st, queue[1..])
    else (st, queue)
  }

  /** Stage 2: the first sensor latches a stop and notifies the camera. */
  function StopLatch(st: ConveyorState, s: Sensors): (r: (ConveyorState, seq<string>))
    ensures r.1 == [Stop] <==> s.d1 < Threshold && !st.flag
    ensures r.1 == [] || r.1 == [Stop]
    ensures r.1 == [Stop] ==> r.0 == st.(flag := true, stopStart := s.now, velocity := 0.0)
    ensures r.1 == [] ==> r.0 == st
  {
    if s.d1 < Threshold && !st.flag then
      (st.(velocity := 0.0, stopStart := s.now, flag := true), [Stop])
    else (st, [])
  }

  /** Stage 3: after the dwell the belt resumes; the latch stays set. */
  function TimedResume(cfg: Config, st: ConveyorState, s: Sensors): (st': ConveyorState)
    ensures st'.flag == st.flag && st'.stopStart == st.stopStart && st'.goDownSent == st.goDownSent
    ensures st.flag && s.now - st.stopStart >= StopDuration ==> st'.velocity == cfg.speed
    ensures !(st.flag && s.now - st.stopStart >= StopDuration) ==> st' == st
  {
    if st.flag && s.now - st.stopStart >= StopDuration then st.(velocity := cfg.speed) else st
  }

  /** Stage 4: the second sensor clears the latch, leaving the belt alone. */
  function PositionUnlatch(st: ConveyorState, s: Sensors): (st': ConveyorState)
    ensures st'.velocity == st.velocity && st'.goDownSent == st.goDownSent
    ensures st.flag && s.d2 < Threshold ==> !st'.flag && st'.stopStart == NoStop
    ensures !(st.flag && s.d2 < Threshold) ==> st' == st
  {
    if st.flag && s.d2 < Threshold then st.(flag := false, stopStart := NoStop) else st
  }

  /** Stage 5: the third sensor stops the belt and sends one go-down. */
  function GoDownSignal(st: ConveyorState, s: Sensors): (r: (ConveyorState, seq<string>))
    ensures r.1 == [GoDown] <==> s.d3.Some? && !st.goDownSent && s.d3.value < Threshold3
    ensures r.1 == [] || r.1 == [GoDown]
    ensures r.1 == [GoDown] ==> r.0 == st.(velocity := 0.0, goDownSent := true)
    ensures r.1 == [] ==> r.0 == st
  {
    if s.d3.Some? && !st.goDownSent && s.d3.value < Threshold3 then
      (st.(velocity := 0.0, goDownSent := true), [GoDown])
    else (st, [])
  }

  /** Stage 6: the go-down latch clears once the belt is back at speed. */
  function ReleaseLatch(cfg: Config, st: ConveyorState): (st': ConveyorState)
    ensures st'.goDownSent <==> st.goDownSent && st.velocity != cfg.speed
    ensures st' == st.(goDownSent := st'.goDownSent)
  {
    if st.goDownSent && st.velocity == cfg.speed then st.(goDownSent := false) else st
  }

  /** Stage 7: the optional hard timer stops the belt and ends the loop. */
  function TimerStop(cfg: Config, st: ConveyorState, s: Sensors): (st': ConveyorState)
    ensures cfg.timer > 0.0 && s.now >= cfg.timer ==> st'.velocity == 0.0 && st'.halted
    ensures !(cfg.timer > 0.0 && s.now >= cfg.timer) ==> st' == st
    ensures st' == st.(velocity := st'.velocity, halted := st'.halted)
  {
    if cfg.timer > 0.0 && s.now >= cfg.timer then st.(velocity := 0.0, halted := true) else st
  }

  datatype TickResult = TickResult(state: ConveyorState, armQueue: seq<string>, out: Emitted)

  /** One iteration of the loop, as the sequential composition of the seven
      stages. The loop only runs while it has not halted. */
  function Tick(cfg: Config, st: ConveyorState, s: Sensors, armQueue: seq<string>): (r: TickResult)
    requires !st.halted
    // one arm packet is consumed per iteration
    ensures r.armQueue == if |armQueue| > 0 then armQueue[1..] else armQueue
    // the belt is only ever commanded to stand or to run at speed
    ensures BeltCommanded(cfg, st) || (|armQueue| > 0 && armQueue[0] == StartConveyor) ==> BeltCommanded(cfg, r.state)
    // STOP goes out exactly when the first sensor trips while unlatched
    ensures r.out.toCamera == (if s.d1 < Threshold && !st.flag then [Stop] else [])
    // a STOP iteration leaves the belt stopped and, unless the second sensor
    // already clears it, the latch set with the current time
    ensures r.out.toCamera == [Stop] ==> r.state.velocity == 0.0
    ensures r.out.toCamera == [Stop] && !(s.d2 < Threshold) ==> r.state.flag && r.state.stopStart == s.now
    // "1" goes out exactly when the third sensor trips and no go-down is latched
    ensures r.out.toArm == (if s.d3.Some? && !st.goDownSent && s.d3.value < Threshold3 then [GoDown] else [])
    ensures r.out.toArm == [GoDown] ==> r.state.velocity == 0.0 && (r.state.goDownSent <==> cfg.speed != 0.0)
    // the go-down latch only clears when the belt is commanded to speed
    ensures st.goDownSent && !r.state.goDownSent ==> r.state.velocity == cfg.speed || r.state.halted
    // the timed resume never clears the latch: only the second sensor does
    ensures st.flag && !r.state.flag ==> s.d2 < Threshold
    ensures r.state.halted <==> cfg.timer > 0.0 && s.now >= cfg.timer
    ensures r.state.halted ==> r.state.velocity == 0.0
  {
    var (st1, rest) := HandleArm(cfg, st, armQueue);
    var (st2, toCamera) := StopLatch(st1, s);
    var st3 := TimedResume(cfg, st2, s);
    var st4 := PositionUnlatch(st3, s);
    var (st5, toArm) := GoDownSignal(st4, s);
    var st6 := ReleaseLatch(cfg, st5);
    var st7 := TimerStop(cfg, st6, s);
    TickResult(st7, rest, Emitted(toCamera, toArm))
  }

  /** With a non-negative clock, every iteration keeps the
      stop latch and its timestamp in agreement. */
  lemma TickKeepsLatchConsistent(cfg: Config, st: ConveyorState, s: Sensors, armQueue: seq<string>)
    requires !st.halted && LatchConsistent(st) && s.now >= 0.0
    ensures LatchConsistent(Tick(cfg, st, s, armQueue).state)
  {
  }

  /** While a stop is latched and the dwell is over, the belt is commanded
      to speed on every iteration where neither the third sensor fires a
      go-down nor the timer expires, yet the latch itself stays set unless
      the second sensor trips. */
  lemma TimedResumeKeepsLatch(cfg: Config, st: ConveyorState, s: Sensors, armQueue: seq<string>)
    requires !st.halted && st.flag && s.now - st.stopStart >= StopDuration
    requires Tick(cfg, st, s, armQueue).out.toArm == [] && !(cfg.timer > 0.0 && s.now >= cfg.timer)
    ensures Tick(cfg, st, s, armQueue).state.velocity == cfg.speed
    ensures Tick(cfg, st, s, armQueue).state.flag <==> !(s.d2 < Threshold)
  {
  }

  /** At most one go-down per latch period: an iteration that sends "1"
      (with a non-zero speed) is never followed by another that sends "1". */
  lemma OneGoDownPerLatch(cfg: Config, st: ConveyorState, s1: Sensors, q1: seq<string>, s2: Sensors, q2: seq<string>)
    requires !st.halted && cfg.speed != 0.0
    requires Tick(cfg, st, s1, q1).out.toArm == [GoDown]
    requires !Tick(cfg, st, s1, q1).state.halted
    ensures Tick(cfg, Tick(cfg, st, s1, q1).state, s2, q2).out.toArm == []
  {
  }

  /** Readings of several iterations. */
  datatype Input = Input(sensors: Sensors, arrived: seq<string>)

  /** The loop over a sequence of iterations, stopping when it halts. */
  function Run(cfg: Config, st: ConveyorState, armQueue: seq<string>, inputs: seq<Input>): (r: (ConveyorState, seq<Emitted>))
    decreases |inputs|
  {
    if |inputs| == 0 || st.halted then (st, [])
    else
      var t := Tick(cfg, st, inputs[0].sensors, armQueue + inputs[0].arrived);
      var rest := Run(cfg, t.state, t.armQueue, inputs[1..]);
      (rest.0, [t.out] + rest.1)
  }

  /** From start-up on, the belt velocity is always 0 or the nominal speed,
      and with a non-negative clock the stop latch agrees with its timestamp. */
  lemma {:induction false} RunInvariants(cfg: Config, st: ConveyorState, armQueue: seq<string>, inputs: seq<Input>)
    requires BeltCommanded(cfg, st) && LatchConsistent(st)
    requires forall i :: 0 <= i < |inputs| ==> inputs[i].sensors.now >= 0.0
    ensures BeltCommanded(cfg, Run(cfg, st, armQueue, inputs).0)
    ensures LatchConsistent(Run(cfg, st, armQueue, inputs).0)
    decreases |inputs|
  {
    if |inputs| > 0 && !st.halted {
      var t := Tick(cfg, st, inputs[0].sensors, armQueue + inputs[0].arrived);
      TickKeepsLatchConsistent(cfg, st, inputs[0].sensors, armQueue + inputs[0].arrived);
      RunInvariants(cfg, t.state, t.armQueue, inputs[1..]);
    }
  }

  lemma InitInvariants(cfg: Config)
    ensures BeltCommanded(cfg, Init(cfg)) && LatchConsistent(Init(cfg))
  {
  }
}

=== FILE: framing.dfy ===
/** The byte-level link between the camera and the detection server:
    big-endian 32-bit header words, the BGRA to RGB repacking of a camera
    image, and the request frame `width, height, size, pixels`. */
module Framing {

  type Byte = bv8

  const U32Limit: nat := 0x1_0000_0000

  /** The angle the server replies, and the camera falls back to, when
      there is no detection. */
  const NoDetection: real := -999.0

  /** Values `struct.pack("!I", n)` accepts. */
  predicate FitsU32(n: int) {
    0 <= n < U32Limit
  }

  /** The byte holding a value below 256. */
  function ByteOf(x: nat): (b: Byte)
    requires x < 0x100
    ensures b as nat == x
  {
    x as Byte
  }

  /** `struct.pack("!I", n)`: four bytes, most significant first. */
  function EncodeU32(n: nat): (b: seq<Byte>)
    requires FitsU32(n)
    ensures |b| == 4
  {
    [ByteOf(n / 0x100_0000), ByteOf(n / 0x1_0000 % 0x100), ByteOf(n / 0x100 % 0x100), ByteOf(n % 0x100)]
  }

  /** `struct.unpack("!I", b)[0]`. */
  function DecodeU32(b: seq<Byte>): (n: nat)
    requires |b| == 4
    ensures FitsU32(n)
  {
    Digits(b[0] as nat, b[1] as nat, b[2] as nat, b[3] as nat)
  }

  /** Value of four base-256 digits, most significant first. */
  function Digits(d0: nat, d1: nat, d2: nat, d3: nat): nat {
    d0 * 0x100_0000 + d1 * 0x1_0000 + d2 * 0x100 + d3
  }

  lemma DivideTwice(n: nat, q: nat)
    requires q == n / 0x100
    ensures q / 0x100 == n / 0x1_0000
    ensures q / 0x1_0000 == n / 0x100_0000
  {
  }

  lemma DecodeEncodeU32(n: nat)
    requires FitsU32(n)
    ensures DecodeU32(EncodeU32(n)) == n
  {
    var q1 := n / 0x100;
    var q2 := q1 / 0x100;
    var q3 := q2 / 0x100;
    DivideTwice(n, q1);
    DivideTwice(q1, q2);
    assert n == q1 * 0x100 + n % 0x100;
    assert q1 == q2 * 0x100 + q1 % 0x100;
    assert q2 == q3 * 0x100 + q2 % 0x100;
    assert q3 == n / 0x100_0000;
    assert Digits(q3, q2 % 0x100, q1 % 0x100, n % 0x100) == n;
  }

  lemma DigitsDivide(d0: nat, d1: nat, d2: nat, d3: nat)
    requires d0 < 0x100 && d1 < 0x100 && d2 < 0x100 && d3 < 0x100
    ensures Digits(d0, d1, d2, d3) % 0x100 == d3
    ensures Digits(d0, d1, d2, d3) / 0x100 == d0 * 0x1_0000 + d1 * 0x100 + d2
    ensures Digits(d0, d1, d2, d3) / 0x1_0000 == d0 * 0x100 + d1
    ensures Digits(d0, d1, d2, d3) / 0x100_0000 == d0
  {
  }

  lemma EncodeDecodeU32(b: seq<Byte>)
    requires |b| == 4
    ensures EncodeU32(DecodeU32(b)) == b
  {
    var d0, d1, d2, d3 := b[0] as nat, b[1] as nat, b[2] as nat, b[3] as nat;
    DigitsOf(d0, d1, d2, d3);
    ByteDigit(b[0]);
    ByteDigit(b[1]);
    ByteDigit(b[2]);
    ByteDigit(b[3]);
  }

  /** The four digits EncodeU32 extracts from Digits(d0, d1, d2, d3). */
  lemma DigitsOf(d0: nat, d1: nat, d2: nat, d3: nat)
    requires d0 < 0x100 && d1 < 0x100 && d2 < 0x100 && d3 < 0x100
    ensures var n := Digits(d0, d1, d2, d3);
            n / 0x100_0000 == d0 && n / 0x1_0000 % 0x100 == d1 && n / 0x100 % 0x100 == d2 && n % 0x100 == d3
  {
    var n := Digits(d0, d1, d2, d3);
    var hi := d0 * 0x100 + d1;
    var mid := hi * 0x100 + d2;
    DigitsDivide(d0, d1, d2, d3);
    assert n / 0x1_0000 == hi;
    assert n / 0x100 == mid;
    LowDigit(d0, d1);
    LowDigit(hi, d2);
  }

  lemma LowDigit(a: nat, d: nat)
    requires d < 0x100
    ensures (a * 0x100 + d) % 0x100 == d
  {
  }

  lemma ByteDigit(x: Byte)
    ensures x as nat < 0x100 && ByteOf(x as nat) == x
  {
  }

  /** Pixel i of a BGRA buffer reappears as RGB pixel i: bytes 3i, 3i+1, 3i+2
      of the output are bytes 4i+2, 4i+1, 4i of the input; alpha is dropped. */
  predicate PixelRepacked(bgra: seq<Byte>, rgb: seq<Byte>, i: nat)
    requires 4 * i + 3 < |bgra| && 3 * i + 2 < |rgb|
  {
    rgb[3 * i] == bgra[4 * i + 2] && rgb[3 * i + 1] == bgra[4 * i + 1] && rgb[3 * i + 2] == bgra[4 * i]
  }

  /** The channel copy of send_image_to_yolo: R, G, B taken from bytes 2, 1,
      0 of every four-byte BGRA pixel. */
  function Repack(bgra: seq<Byte>): (rgb: seq<Byte>)
    requires |bgra| % 4 == 0
    ensures |rgb| == |bgra| / 4 * 3
    decreases |bgra|
  {
    if |bgra| == 0 then [] else [bgra[2], bgra[1], bgra[0]] + Repack(bgra[4..])
  }

  lemma {:induction false} RepackMovesChannels(bgra: seq<Byte>)
    requires |bgra| % 4 == 0
    ensures forall i: nat :: i < |bgra| / 4 ==> PixelRepacked(bgra, Repack(bgra), i)
    decreases |bgra|
  {
    if |bgra| > 0 {
      var rest := bgra[4..];
      RepackMovesChannels(rest);
      var rgb := Repack(bgra);
      assert rgb[3..] == Repack(rest);
      forall i: nat | i < |bgra| / 4
        ensures PixelRepacked(bgra, rgb, i)
      {
        if i > 0 {
          assert PixelRepacked(rest, Repack(rest), i - 1);
          assert rgb[3 * i] == Repack(rest)[3 * (i - 1)];
          assert rgb[3 * i + 1] == Repack(rest)[3 * (i - 1) + 1];
          assert rgb[3 * i + 2] == Repack(rest)[3 * (i - 1) + 2];
        }
      }
    }
  }

  /** An image of width w and height h as the server gets it. */
  datatype Frame = Frame(width: nat, height: nat, pixels: seq<Byte>)

  /** Header values fit the 32-bit words. */
  predicate Encodable(f: Frame) {
    FitsU32(f.width) && FitsU32(f.height) && FitsU32(|f.pixels|)
  }

  /** The request: be32(w) ++ be32(h) ++ be32(size) ++ pixels, with size the
      length of the pixel payload. */
  function EncodeRequest(f: Frame): (req: seq<Byte>)
    requires Encodable(f)
    ensures |req| == 12 + |f.pixels|
    ensures req[12..] == f.pixels
  {
    EncodeU32(f.width) + EncodeU32(f.height) + EncodeU32(|f.pixels|) + f.pixels
  }

  /** The frame a camera image of width w and height h produces: its pixel
      payload holds three bytes per pixel. */
  lemma RepackedFrameSize(w: nat, h: nat, bgra: seq<Byte>)
    requires |bgra| == w * h * 4
    ensures |Repack(bgra)| == h * w * 3
  {
    assert |bgra| / 4 == w * h;
  }
}

=== FILE: kinematics.dfy ===
/** The arm's fixed geometry, the acos clamp of its planar inverse kinematics,
    the wrist compensation that keeps the gripper level, and the linear ramp
    every motion phase follows. The trigonometry of the solver itself is not
    modelled: the arm receives it as a parameter (see module Arm). */
module Kinematics {
  import opened Common

  /** Link lengths of the UR10e upper arm and forearm. */
  const L1: real := 0.613
  const L2: real := 0.637

  /** Home pose of the six joints. */
  const BaseShoulderPan: real := -0.7796
  const BaseShoulderLift: real := -0.507
  const BaseElbow: real := 0.5072
  const BaseWrist1: real := -1.570
  const BaseWrist2: real := -1.570
  const BaseWrist3: real := 0.0
  const BaseCurv: real := BaseShoulderLift + BaseElbow

  /** Number of intervals of every ramp; a ramp issues Steps + 1 targets. */
  const Steps: nat := 40

  /** `clamp`: the acos argument is forced into [-1, 1]. */
  function Clamp(v: real): (r: real)
    ensures -1.0 <= r <= 1.0
    ensures -1.0 <= v <= 1.0 ==> r == v
    ensures v < -1.0 ==> r == -1.0
    ensures v > 1.0 ==> r == 1.0
  {
    Max(-1.0, Min(1.0, v))
  }

  /** Law-of-cosines ratio for the shoulder-to-elbow angle at radius `r`,
      before clamping. */
  function CosineRatio(r: real): real
    requires r > 0.0
  {
    (r * r + L1 * L1 - L2 * L2) / (2.0 * r * L1)
  }

  /** The clamped ratio handed to acos by move_horiz and move_vert. */
  function ElbowCosine(r: real): (c: real)
    requires r > 0.0
    ensures -1.0 <= c <= 1.0
  {
    Clamp(CosineRatio(r))
  }

  /** Points whose distance from the shoulder lies in the reachable annulus. */
  predicate InAnnulus(r: real) {
    L2 - L1 <= r <= L1 + L2
  }

  /** The clamp engages exactly outside the reachable annulus: inside it the
      ratio is already a cosine, outside it is not. */
  lemma ClampOnlyOutsideAnnulus(r: real)
    requires r > 0.0
    ensures InAnnulus(r) <==> -1.0 <= CosineRatio(r) <= 1.0
    ensures InAnnulus(r) <==> ElbowCosine(r) == CosineRatio(r)
  {
    var d := 2.0 * r * L1;
    var n := r * r + L1 * L1 - L2 * L2;
    assert d > 0.0;
    RatioBounds(n, d);
    // ratio <= 1 iff (r - L1)^2 <= L2^2; ratio >= -1 iff (r + L1)^2 >= L2^2
    assert d - n == L2 * L2 - (r - L1) * (r - L1);
    assert n + d == (r + L1) * (r + L1) - L2 * L2;
    SquareBound(r - L1, L2);
    SquareAtLeast(r + L1, L2);
  }

  lemma SquareAtLeast(a: real, b: real)
    requires a > 0.0 && b > 0.0
    ensures a * a >= b * b <==> a >= b
  {
    SquareBoundMagnitude(b, a);
  }

  lemma RatioBounds(n: real, d: real)
    requires d > 0.0
    ensures n / d <= 1.0 <==> n <= d
    ensures n / d >= -1.0 <==> n >= -d
  {
    var q := n / d;
    assert q * d == n;
    assert d - n == (1.0 - q) * d;
    assert n + d == (q + 1.0) * d;
    ProductSign(1.0 - q, d);
    ProductSign(q + 1.0, d);
  }

  lemma ProductSign(a: real, d: real)
    requires d > 0.0
    ensures a >= 0.0 <==> a * d >= 0.0
  {
    if a < 0.0 {
      assert (-a) * d > 0.0;
    }
  }

  lemma SquareBound(a: real, b: real)
    requires b > 0.0
    ensures a * a <= b * b <==> -b <= a <= b
  {
    if a >= 0.0 {
      SquareBoundMagnitude(a, b);
    } else {
      SquareBoundMagnitude(-a, b);
      assert (-a) * (-a) == a * a;
    }
  }

  lemma SquareBoundMagnitude(m: real, b: real)
    requires m >= 0.0 && b > 0.0
    ensures m * m <= b * b <==> m <= b
  {
    assert m * b == b * m;
    if m > b {
      ScaleStrict(b, m, m);
      ScaleStrict(b, m, b);
    } else {
      ScaleWeak(m, b, m);
      ScaleWeak(m, b, b);
    }
  }

  lemma ScaleStrict(x: real, y: real, c: real)
    requires x < y && c > 0.0
    ensures x * c < y * c
  {
    assert y * c - x * c == (y - x) * c;
  }

  /** start + s * d moves towards start + d as s grows. */
  lemma AffineMonotone(start: real, d: real, sj: real, sk: real, xj: real, xk: real)
    requires sj <= sk && xj == start + sj * d && xk == start + sk * d
    ensures d >= 0.0 ==> xj <= xk
    ensures d <= 0.0 ==> xk <= xj
  {
    if d >= 0.0 {
      ScaleWeak(sj, sk, d);
    }
    if d <= 0.0 {
      ScaleWeakNegative(sj, sk, d);
    }
  }

  lemma ScaleWeakNegative(x: real, y: real, c: real)
    requires x <= y && c <= 0.0
    ensures y * c <= x * c
  {
    assert x * c - y * c == (y - x) * (-c);
  }

  lemma ScaleWeak(x: real, y: real, c: real)
    requires x <= y && c >= 0.0
    ensures x * c <= y * c
  {
    assert y * c - x * c == (y - x) * c;
  }

  /** Wrist-1 command of every ramp step: the wrist undoes the shoulder and
      elbow rotation away from the home curvature. */
  function Wrist1Command(theta: real, phi: real): real {
    BaseWrist1 + BaseCurv - (theta + phi)
  }

  /** The gripper pitch, i.e. the summed rotation of lift, elbow and wrist 1. */
  function Pitch(lift: real, elbow: real, wrist1: real): real {
    lift + elbow + wrist1
  }

  /** Compensation keeps the pitch at its home value for every IK answer, and
      at the home pose it commands the home wrist angle. */
  lemma WristKeepsGripperLevel(theta: real, phi: real)
    ensures Pitch(theta, phi, Wrist1Command(theta, phi))
         == Pitch(BaseShoulderLift, BaseElbow, BaseWrist1)
    ensures Wrist1Command(BaseShoulderLift, BaseElbow) == BaseWrist1
  {
  }

  /** `s = k / STEPS`. */
  function RampParameter(k: nat): (s: real)
    requires k <= Steps
    ensures 0.0 <= s <= 1.0
    ensures s == 0.0 <==> k == 0
    ensures s == 1.0 <==> k == Steps
  {
    k as real / Steps as real
  }

  /** Value lies on the closed segment between `a` and `b`. */
  predicate Between(a: real, b: real, x: real) {
    Min(a, b) <= x <= Max(a, b)
  }

  /** `start + s * (end - start)` for the k-th step of a ramp. */
  function RampPoint(start: real, end: real, k: nat): (x: real)
    requires k <= Steps
    ensures k == 0 ==> x == start
    ensures k == Steps ==> x == end
    ensures Between(start, end, x)
  {
    var s := RampParameter(k);
    ScaleWithin(s, end - start);
    start + s * (end - start)
  }

  /** Scaling by a factor in [0, 1] keeps a value between 0 and itself. */
  lemma ScaleWithin(s: real, d: real)
    requires 0.0 <= s <= 1.0
    ensures Between(0.0, d, s * d)
  {
    if d > 0.0 {
      ProductSign(1.0 - s, d);
      ProductSign(s, d);
    } else if d < 0.0 {
      ProductSign(1.0 - s, -d);
      ProductSign(s, -d);
    }
  }

  /** The full list of targets of one ramp, k = 0 .. Steps. */
  function Ramp(start: real, end: real): (xs: seq<real>)
    ensures |xs| == Steps + 1
    ensures xs[0] == start && xs[Steps] == end
    ensures forall k :: 0 <= k < |xs| ==> Between(start, end, xs[k])
  {
    seq(Steps + 1, k requires 0 <= k <= Steps => RampPoint(start, end, k))
  }

  /** Consecutive targets move monotonically from start towards end. */
  lemma RampMonotone(start: real, end: real, j: nat, k: nat)
    requires j <= k <= Steps
    ensures start <= end ==> RampPoint(start, end, j) <= RampPoint(start, end, k)
    ensures end <= start ==> RampPoint(start, end, k) <= RampPoint(start, end, j)
  {
    var sj, sk := RampParameter(j), RampParameter(k);
    var xj, xk := RampPoint(start, end, j), RampPoint(start, end, k);
    assert sj <= sk;
    AffineMonotone(start, end - start, sj, sk, xj, xk);
  }
}

=== FILE: messages.dfy ===
/** Payloads of the radio channels between the three controllers. Control
    messages are compared as whole strings; detection packets are parsed
    field by field, with the float syntax itself abstracted away. */
module Messages {
  import opened Common

  /** Conveyor to camera: an object reached the first sensor. */
  const Stop: string := "STOP"
  /** Arm to conveyor: the cycle is over, resume the belt. */
  const StartConveyor: string := "START_CONV"
  /** Conveyor to arm: the object is under the gripper, go down. */
  const GoDown: string := "1"

  /** One whitespace-separated field of a detection packet: either text that
      `float()` accepts, carrying its value, or text it rejects. */
  datatype Field = Numeric(value: real) | Text(text: string)

  /** A detection packet, as the list its `str.split()` produces. */
  type Packet = seq<Field>

  predicate AllNumeric(p: Packet) {
    forall i :: 0 <= i < |p| ==> p[i].Numeric?
  }

  /** `[float(x) for x in data_str.split()]`: all fields convert, or the
      conversion raises (None). */
  function ParseFloats(p: Packet): (r: Option<seq<real>>)
    ensures r.Some? <==> AllNumeric(p)
    ensures r.Some? ==> |r.value| == |p|
    ensures r.Some? ==> forall i :: 0 <= i < |p| ==> r.value[i] == p[i].value
  {
    if |p| == 0 then Some([])
    else if p[0].Text? then None
    else
      match ParseFloats(p[1..])
      case None => None
      case Some(rest) => Some([p[0].value] + rest)
  }

  /** The camera's message `f"{x} {y} {z} {angle_rad}"`. */
  function FormatDetection(x: real, y: real, z: real, angleRad: real): Packet {
    [Numeric(x), Numeric(y), Numeric(z), Numeric(angleRad)]
  }

  /** A detection message has four fields, all numeric, with the lateral
      offset second and the angle last; parsing it recovers those values. */
  lemma DetectionParses(x: real, y: real, z: real, angleRad: real)
    ensures var p := ParseFloats(FormatDetection(x, y, z, angleRad));
            p.Some? && |p.value| == 4 && p.value[1] == y && p.value[3] == angleRad
  {
  }
}

=== FILE: pipeline.dfy ===
/** How the four programs' messages meet: the conveyor's STOP reaches the
    camera, the camera's request reaches the server, the camera's detection
    reaches the arm, and the conveyor's "1" reaches the arm. Each lemma
    feeds what one program emits to the next one's handler. */
module Pipeline {
  import opened Common
  import opened Messages
  import opened Framing
  import Conveyor
  import Camera
  import YoloServer
  import Arm
  import ArmCycle

  /** The request the camera writes for a non-empty image is served as one
      whole request: the server replies the corrected angle of the image
      the camera repacked, and reads nothing beyond it. */
  lemma CameraRequestServed(img: Camera.Image, reply: Camera.Reply, readDouble: Camera.DoubleReader,
                            more: seq<Byte>, grants: seq<nat>, detect: YoloServer.Detector)
    requires Camera.DeviceImage(img) && |img.bgra| > 0
    requires Encodable(Camera.ImageFrame(img))
    ensures var e := Camera.SendImage(img, reply, readDouble);
            var r := YoloServer.ServeOnce(e.written + more, grants, detect);
            && r.Ok?
            && r.value.reply == YoloServer.ReplyAngle(detect(Camera.ImageFrame(img)))
            && r.value.rest == more
  {
    YoloServer.ServeOnceRequest(Camera.ImageFrame(img), more, grants, detect);
  }

  /** A STOP from the conveyor, with an object the camera recognises on any
      of its five reads at a non-zero y, starts a pick on an idle arm: the arm takes the object's
      y offset and the angle in radians the camera derived from the server. */
  lemma StopStartsPick(cfg: Conveyor.Config, belt: Conveyor.ConveyorState, s: Conveyor.Sensors, beltInbox: seq<string>,
                       cam: Camera.CameraState, sc: Camera.Scene, readDouble: Camera.DoubleReader,
                       env: Arm.Env, arm: Arm.ArmState, armConveyorQueue: seq<string>)
    requires !belt.halted && s.d1 < Conveyor.Threshold && !belt.flag
    requires Camera.ValidScene(sc) && sc.position.1 != 0.0
    requires exists j :: 0 <= j < Camera.MaxPolls && sc.counts[j] > 0
    requires ArmCycle.Reachable(env, arm) && arm.phase == Arm.Waiting
    ensures var b := Conveyor.Tick(cfg, belt, s, beltInbox);
            var c := Camera.Tick(cam, b.out.toCamera, sc, readDouble);
            var e := Camera.SendImage(sc.image, sc.reply, readDouble);
            var a := Arm.Step(env, arm, c.toArm, armConveyorQueue);
            && a.state.phase == Arm.Translating
            && a.state.objectX == sc.position.1
            && a.state.objectAngle == Camera.AngleToRadians(e.angleDeg)
            && a.state.locked
  {
    var b := Conveyor.Tick(cfg, belt, s, beltInbox);
    var c := Camera.Tick(cam, b.out.toCamera, sc, readDouble);
    assert |c.toArm| == 1;
    var e := Camera.SendImage(sc.image, sc.reply, readDouble);
    ArmCycle.DetectionStartsCycle(env, arm, sc.position.0, sc.position.1, sc.position.2,
                                  Camera.AngleToRadians(e.angleDeg), armConveyorQueue);
  }

  /** The conveyor's "1" releases an arm holding above the belt. */
  lemma GoDownStartsDescent(cfg: Conveyor.Config, belt: Conveyor.ConveyorState, s: Conveyor.Sensors, beltInbox: seq<string>,
                            env: Arm.Env, arm: Arm.ArmState, camQueue: seq<Packet>)
    requires !belt.halted && s.d3.Some? && s.d3.value < Conveyor.Threshold3 && !belt.goDownSent
    requires ArmCycle.Reachable(env, arm) && arm.phase == Arm.WaitingForDescend
    ensures var b := Conveyor.Tick(cfg, belt, s, beltInbox);
            Arm.Step(env, arm, camQueue, b.out.toArm).state.phase == Arm.Descending
  {
    var b := Conveyor.Tick(cfg, belt, s, beltInbox);
    ArmCycle.DescendStep(env, arm, camQueue, b.out.toArm);
  }

  /** The arm's START_CONV, read by the conveyor in an iteration where no
      sensor trips and the timer has not run out, sets the belt back to its
      nominal speed and, with it, clears the go-down latch for the next
      object. */
  lemma StartConveyorResumesBelt(cfg: Conveyor.Config, belt: Conveyor.ConveyorState, s: Conveyor.Sensors,
                                 env: Arm.Env, arm: Arm.ArmState, camQueue: seq<Packet>, convQueue: seq<string>)
    requires !belt.halted && arm.phase == Arm.Releasing
    requires !(s.d1 < Conveyor.Threshold && !belt.flag)
    requires !(s.d3.Some? && !belt.goDownSent && s.d3.value < Conveyor.Threshold3)
    requires !(cfg.timer > 0.0 && s.now >= cfg.timer)
    ensures var a := Arm.Step(env, arm, camQueue, convQueue);
            var b := Conveyor.Tick(cfg, belt, s, a.outbox);
            b.state.velocity == cfg.speed && !b.state.goDownSent
  {
  }
}

=== FILE: server.dfy ===
/** The detection server's request loop: read the three header words, read
    the pixel payload, check its size and shape, run the detector, correct
    and normalise the box angle, reply. Any failure ends the loop. */
module YoloServer {
  import opened Common
  import opened Framing

  /** The first oriented box of a detection: rotation in degrees (already
      converted from radians) and the box's width and height. */
  datatype Obb = Obb(rotationDeg: real, boxW: real, boxH: real)

  /** The YOLO model, left abstract: the first box found in a frame, if any. */
  type Detector = Frame -> Option<Obb>

  /** Why the loop ended. */
  datatype Ending =
    | Disconnected     // a header read came back empty
    | MalformedHeader  // a header read came back short, so unpacking fails
    | ShortPayload     // the connection closed before `size` payload bytes
    | BadShape         // `size` is not height * width * 3, so reshaping fails

  /** The angle before normalisation: +90 degrees for an upright box. */
  function Upright(o: Obb): (a: real)
    ensures a == o.rotationDeg + 90.0 <==> o.boxH > o.boxW
    ensures a == o.rotationDeg <==> o.boxH <= o.boxW
  {
    if o.boxH > o.boxW then o.rotationDeg + 90.0 else o.rotationDeg
  }

  /** The corrected angle sent back for a box. */
  function CorrectAngle(o: Obb): (r: real)
    // 180 is subtracted at most once, and exactly when the value exceeds 180
    ensures r == Upright(o) || r == Upright(o) - 180.0
    ensures r == Upright(o) - 180.0 <==> Upright(o) > 180.0
    ensures Upright(o) <= 360.0 ==> r <= 180.0
    // a flat box whose angle is at most 180 keeps its angle
    ensures o.rotationDeg <= 180.0 && o.boxH <= o.boxW ==> r == o.rotationDeg
    // a rotation in [0, 180] ends up in [0, 180]
    ensures 0.0 <= o.rotationDeg <= 180.0 ==> 0.0 <= r <= 180.0
  {
    var a := Upright(o);
    if a > 180.0 then a - 180.0 else a
  }

  /** The reply: the sentinel without a box, the corrected angle with one. */
  function ReplyAngle(box: Option<Obb>): (r: real)
    ensures box.None? ==> r == NoDetection
    ensures box.Some? ==> r == CorrectAngle(box.value)
  {
    match box
    case None => NoDetection
    case Some(o) => CorrectAngle(o)
  }

  /** `conn.recv(4)` with whole reads: four bytes, or what is left. */
  function Recv4(stream: seq<Byte>): (r: (seq<Byte>, seq<Byte>))
    ensures r.0 + r.1 == stream
    ensures |r.0| == if |stream| < 4 then |stream| else 4
  {
    if |stream| < 4 then (stream, []) else (stream[..4], stream[4..])
  }

  datatype Header = Header(width: nat, height: nat, size: nat)

  /** The three header reads and their unpacking. */
  function ReadHeader(stream: seq<Byte>): (r: Result<(Header, seq<Byte>), Ending>)
    ensures r == Err(Disconnected) <==> |stream| <= 8
    ensures r == Err(MalformedHeader) <==> 8 < |stream| < 12
    ensures r.Ok? <==> |stream| >= 12
    ensures r.Ok? ==> r.value.1 == stream[12..]
    ensures r.Ok? ==> r.value.0 == Header(DecodeU32(stream[..4]), DecodeU32(stream[4..8]), DecodeU32(stream[8..12]))
  {
    var (wb, s1) := Recv4(stream);
    var (hb, s2) := Recv4(s1);
    var (sb, s3) := Recv4(s2);
    if |wb| == 0 || |hb| == 0 || |sb| == 0 then Err(Disconnected)
    else if |wb| < 4 || |hb| < 4 || |sb| < 4 then Err(MalformedHeader)
    else
      assert stream == wb + hb + sb + s3;
      assert stream[..4] == wb && stream[4..8] == hb && stream[8..12] == sb;
      Ok((Header(DecodeU32(wb), DecodeU32(hb), DecodeU32(sb)), s3))
  }

  /** How many bytes `conn.recv(want)` returns with `avail` bytes still to
      come: none only when the peer has closed, otherwise between one and
      `want`, as far as the transport's next delivery bound in `grants`
      allows. */
  function RecvCount(want: nat, avail: nat, grants: seq<nat>): (n: nat)
    ensures n <= want && n <= avail
    ensures n == 0 <==> avail == 0 || want == 0
  {
    if avail == 0 then 0
    else
      var most := if want <= avail then want else avail;
      if |grants| > 0 && 0 < grants[0] < most then grants[0] else most
  }

  datatype Payload = Payload(data: seq<Byte>, rest: seq<Byte>, grants: seq<nat>)

  /** The payload loop: while fewer than `size` bytes are held, ask for the
      missing number of bytes; stop early when a read comes back empty. */
  function Accumulate(data: seq<Byte>, stream: seq<Byte>, size: nat, grants: seq<nat>): (r: Payload)
    requires |data| <= size
    // never more than requested, nothing lost or reordered
    ensures |r.data| <= size
    ensures r.data + r.rest == data + stream
    // complete exactly when the stream holds enough bytes
    ensures |r.data| == size <==> |data| + |stream| >= size
    ensures |r.data| < size ==> r.rest == []
    decreases size - |data|
  {
    if |data| == size then Payload(data, stream, grants)
    else
      var n := RecvCount(size - |data|, |stream|, grants);
      if n == 0 then Payload(data, stream, grants)
      else
        assert data + stream == (data + stream[..n]) + stream[n..];
        Accumulate(data + stream[..n], stream[n..], size, if |grants| > 0 then grants[1..] else grants)
  }

  datatype Served = Served(reply: real, rest: seq<Byte>, grants: seq<nat>)

  /** One iteration of the request loop. */
  function ServeOnce(stream: seq<Byte>, grants: seq<nat>, detect: Detector): (r: Result<Served, Ending>)
    ensures r.Ok? ==> |r.value.rest| <= |stream| - 12
    // a reply is sent only for a complete request whose size matches its shape
    ensures r.Ok? ==>
              var hd := ReadHeader(stream).value.0;
              && hd.size == hd.height * hd.width * 3
              && |stream| >= 12 + hd.size
              && r.value.rest == stream[12 + hd.size..]
              && r.value.reply == ReplyAngle(detect(Frame(hd.width, hd.height, stream[12..12 + hd.size])))
    ensures |stream| < 12 ==> r.Err? && r.error != ShortPayload && r.error != BadShape
  {
    match ReadHeader(stream)
    case Err(e) => Err(e)
    case Ok((hd, body)) =>
      var p := Accumulate([], body, hd.size, grants);
      if |p.data| != hd.size then Err(ShortPayload)
      else if hd.size != hd.height * hd.width * 3 then Err(BadShape)
      else
        PayloadSlices(stream, p.data, p.rest);
        Ok(Served(ReplyAngle(detect(Frame(hd.width, hd.height, p.data))), p.rest, p.grants))
  }

  /** A payload split off the body that follows the 12 header bytes. */
  lemma PayloadSlices(stream: seq<Byte>, data: seq<Byte>, rest: seq<Byte>)
    requires |stream| >= 12 && stream[12..] == data + rest
    ensures |stream| >= 12 + |data|
    ensures data == stream[12..12 + |data|] && rest == stream[12 + |data|..]
  {
    assert stream[12..][..|data|] == data;
    assert stream[12..][|data|..] == rest;
  }

  datatype Session = Session(replies: seq<real>, ending: Ending)

  /** The request loop until it ends. */
  function Serve(stream: seq<Byte>, grants: seq<nat>, detect: Detector): (s: Session)
    ensures |s.replies| <= |stream| / 12
    decreases |stream|
  {
    match ServeOnce(stream, grants, detect)
    case Err(e) => Session([], e)
    case Ok(served) =>
      var s := Serve(served.rest, served.grants, detect);
      Session([served.reply] + s.replies, s.ending)
  }

  /** Back-to-back requests on one connection. */
  function Requests(frames: seq<Frame>): seq<Byte>
    requires forall i :: 0 <= i < |frames| ==> Encodable(frames[i])
  {
    if |frames| == 0 then [] else EncodeRequest(frames[0]) + Requests(frames[1..])
  }

  /** A request is acceptable when its payload has the size of its shape. */
  predicate WellShaped(f: Frame) {
    Encodable(f) && |f.pixels| == f.height * f.width * 3
  }

  /** One well-shaped request in front of any further bytes: the header
      round-trips and the payload is taken exactly. */
  lemma ServeOnceRequest(f: Frame, more: seq<Byte>, grants: seq<nat>, detect: Detector)
    requires WellShaped(f)
    ensures var r := ServeOnce(EncodeRequest(f) + more, grants, detect);
            r.Ok? && r.value.reply == ReplyAngle(detect(f)) && r.value.rest == more
  {
    var stream := EncodeRequest(f) + more;
    assert stream[..4] == EncodeU32(f.width);
    assert stream[4..8] == EncodeU32(f.height);
    assert stream[8..12] == EncodeU32(|f.pixels|);
    DecodeEncodeU32(f.width);
    DecodeEncodeU32(f.height);
    DecodeEncodeU32(|f.pixels|);
    assert stream[12..12 + |f.pixels|] == f.pixels;
    assert stream[12 + |f.pixels|..] == more;
  }

  /** Each complete, well-shaped request gets exactly one reply, in order,
      and the loop ends when the camera stops sending. */
  lemma {:induction false} ServesEveryRequest(frames: seq<Frame>, grants: seq<nat>, detect: Detector)
    requires forall i :: 0 <= i < |frames| ==> Encodable(frames[i])
    requires forall i :: 0 <= i < |frames| ==> |frames[i].pixels| == frames[i].height * frames[i].width * 3
    ensures var s := Serve(Requests(frames), grants, detect);
            && s.ending == Disconnected
            && |s.replies| == |frames|
            && forall i :: 0 <= i < |frames| ==> s.replies[i] == ReplyAngle(detect(frames[i]))
    decreases |frames|
  {
    if |frames| > 0 {
      var tail := Requests(frames[1..]);
      ServeOnceRequest(frames[0], tail, grants, detect);
      var served := ServeOnce(Requests(frames), grants, detect).value;
      ServesEveryRequest(frames[1..], served.grants, detect);
      var s := Serve(tail, served.grants, detect);
      assert Serve(Requests(frames), grants, detect) == Session([served.reply] + s.replies, s.ending);
      forall i | 0 < i < |frames|
        ensures ([served.reply] + s.replies)[i] == ReplyAngle(detect(frames[i]))
      {
        assert frames[1..][i - 1] == frames[i];
      }
    }
  }
}
